=== FILE: README.md ===
# cjdropship — a Dafny model of the CJDropshipping integration for Odoo

This project models the decision logic of the `cjdropship` Odoo addon. The
addon connects an Odoo shop to the CJDropshipping supplier. The model covers
these parts:

- **The supplier order** (`cjdropship.order`, module `Orders`). This is its
  fulfilment state machine: `draft`, `submitted`, `processing`, `shipped`,
  `delivered`, `cancelled` and `error`.
  - Submission is guarded by the state. Its payload is built from the
    eligible sale lines.
  - The status refresh and the logistics query need a supplier order id.
  - The fixed status table of `_update_from_cj_data` overwrites the state.
  - The `cj_order_id` unique constraint holds over the store of orders.
- **The webhook log** (`cjdropship.webhook`, module `Webhooks`). It covers
  processing at most once and the three handlers (order status, tracking,
  inventory) with their guards.
- **The public endpoint** (`/cjdropship/webhook/<config_id>`, module
  `WebhookController`). It covers the configuration check, the ordered,
  case-blind classification of the event name, and the log-then-process
  sequence.
- **The API client** (module `Api`). Its token cache is a two-field state over
  an abstract clock, with a fixed lifetime of 7000 s. It also covers the
  `code != 200` envelope check and the optional query parameters.
- **The settings record** (`cjdropship.config`, module `Config`). It covers:
  - the markup formula and the two field constraints;
  - the credential guard and the choice of the default configuration;
  - the connection test, the sync guard and the webhook address.
- **The catalog** (`cjdropship.product`, module `Catalog`). It covers:
  - the `(cj_product_id, cj_variant_id)` uniqueness;
  - publishing as a host product template, and the bulk version of it;
  - the sync of one record, with its fallback when the inventory lookup
    fails.
- **The import wizard** (module `ImportWizard`). One page of the supplier's
  list is folded into the catalog. Entries without `pid` are skipped; the
  others are upserted by product id, repriced, optionally published and
  counted.
- **The sale order extension** (`sale.order`, module `Sales`). It covers:
  - what makes a sale order a supplier order;
  - creating its supplier order at most once;
  - auto-submission on confirmation, and the manual submission.

Supporting modules:

- `Wrappers` holds `Option`, `Result` and `Outcome`.
- `Text` holds ASCII `lower`/`upper`, substring search and integer text.
- `Values` holds a JSON-like `Value` and the Python operations the code
  applies to it: truthiness, `.get`, `[...]`, `int()`, `float()` and
  `.upper()`. Each operation raises the exception Python would, as an
  `Error`.
- `Host` holds the parts of the host sale order that are read or written.

Model conventions:

- Record stores are sequences. Sale orders, supplier orders, catalog records
  and templates are referred to by their index in their store.
- Configurations carry their own `id`. `browse` finds a configuration by that
  id, and the default configuration is the active one with the least id,
  since the model declares no `_order` (`Config.DefaultIsLeastActive`).
- An Odoo `search(..., limit=1)` on a store of records follows its model's order:
  - catalog records have no `_order`, so the search gives the first active
    match;
  - supplier orders use `create_date desc`, so it gives the newest.
- The clock is an abstract integer of seconds.
- Every remote call is a parameter. An `Exchange` holds the authentication
  reply that a refresh would use and the reply to the request.

Behaviour of the code worth noting:

- The token expires exactly 7000 s after it is obtained. There is no safety
  margin and no expiry supplied by the server.
- `_update_from_cj_data` overwrites the state. A later `PENDING` takes a
  `processing` order back to `submitted` (`Orders.UpdateIsNotMonotonic`).
- A tracking webhook forces `shipped` from any state
  (`Webhooks.TrackingForcesShipped`).
- A submission with no eligible line ends in `error`, not in `draft`. The
  model keeps the writes made before an exception, with no rollback. In Odoo,
  a `UserError` that reaches the UI rolls the `error` state back. The state
  persists on the auto-submission path, where the exception is caught.
- A manual submission of an unlinked sale order only creates the supplier
  order. It is submitted only when auto-fulfilment is on.
- An order in `error` can never be submitted again from its sale order.
- A list entry that is not an object ends the whole import. The per-entry
  `except` handler calls `.get` on the entry again, and that call raises in
  turn.

## Model

| member | source | states |
|---|---|---|
| Values.Get | cjdropship/models/cjdropship_order.py:245 | `.get(key, default)` succeeds exactly on a dict. It gives the stored value for a present key and the default otherwise. |
| Values.Index | cjdropship/models/cjdropship_api.py:67 | `v[key]` succeeds exactly when `v` is a dict holding the key, and gives that entry. |
| Values.UpperOf | cjdropship/models/cjdropship_order.py:245 | `.upper()` succeeds exactly on a string and gives its upper-cased text. |
| Values.Trunc | cjdropship/models/cjdropship_order.py:141 | `int()` of a float truncates toward zero: the result lies on the zero side of the input, less than 1 away. |
| Values.ToInt | cjdropship/models/cjdropship_webhook.py:120 | `int()` keeps an integer, gives 1/0 for a boolean, truncates a float toward zero, reads an integer text and raises on any other text, on `None`, a list or a dict. |
| Values.ToFloat | cjdropship/wizards/product_import_wizard.py:77 | `float()` keeps an int or a float, gives 1.0/0.0 for a boolean, reads a decimal text and raises on any other text, on `None`, a list or a dict. |
| Values.ToIntOfPrintedInt | cjdropship/models/cjdropship_webhook.py:120 | A quantity sent as the decimal text of an integer converts back to that integer. |
| Values.ToFloatOfPrintedInt | cjdropship/wizards/product_import_wizard.py:77 | A price sent as the decimal text of an integer converts to that number. |
| Values.ToFloatOfPrintedDecimal | cjdropship/wizards/product_import_wizard.py:77 | A price sent as decimal text `[-]w.f`, with either side of the point possibly empty, converts to the number it spells. |
| Api.Body | cjdropship/models/cjdropship_api.py:111-112 | The body can be used exactly when the server answered without a 4xx/5xx status and sent JSON. |
| Api.Authenticate | cjdropship/models/cjdropship_api.py:63-78 | Success exactly when `code == 200`, `result` is truthy and `data.accessToken` exists. The token is then stored with expiry `now + 7000`. On failure the client is unchanged. A rejection carries `message`, or 'Unknown error'. |
| Api.GetToken | cjdropship/models/cjdropship_api.py:22-30 | A valid token is reused and nothing else happens. Otherwise the call is exactly an authentication. |
| Api.Envelope | cjdropship/models/cjdropship_api.py:111-118 | Success exactly for a JSON object whose `code` equals 200. It then gives `data`, or `{}` when there is none. A different code is an API error carrying `message` or 'Unknown error'. |
| Api.MakeRequest | cjdropship/models/cjdropship_api.py:88-118 | A token failure is returned as is. Otherwise a verb other than GET/POST/PUT is refused, and the envelope check decides the result. |
| Api.ProductList | cjdropship/models/cjdropship_api.py:127-136 | `pageNum` and `pageSize` are always sent. `categoryId` is sent exactly when the category is truthy. No other parameter is sent. |
| Api.ProductInventory | cjdropship/models/cjdropship_api.py:148-154 | `pid` is always sent. `vid` is sent exactly when the variant is truthy. No other parameter is sent. |
| Api.OperationsUseSupportedVerbs | cjdropship/models/cjdropship_api.py:126-191 | Every request builder, for any arguments, uses a verb that `_make_request` accepts. Each operation's verb is a fixed constant, so this is a check of the ten constants. |
| Api.FreshClientAuthenticates | cjdropship/models/cjdropship_api.py:15-25 | A new client (no token, expiry 0) authenticates on its first request, at any time. |
| Api.NeedsRefresh | cjdropship/models/cjdropship_api.py:24-25 | A refresh is due when there is no token, and otherwise exactly from the expiry instant on. |
| Api.RefreshIffDue | cjdropship/models/cjdropship_api.py:24-25 | The authentication endpoint is used if and only if there is no token or `now >= expiry`. |
| Api.TokenWindow | cjdropship/models/cjdropship_api.py:66-69 | A token obtained at `now` is reused before `now + 7000` and refreshed from then on. |
| Api.FailedRefreshStaysDue | cjdropship/models/cjdropship_api.py:73-86 | A failed authentication leaves the cache unchanged, so the refresh is still due. |
| Api.ApiErrorDespiteHttpOk | cjdropship/models/cjdropship_api.py:114-116 | An HTTP 200 reply whose `code` is not 200 is an API error with the reply's message. |
| Config.SalePrice | cjdropship/models/cjdropship_config.py:152-158 | A percentage markup adds that percentage of the cost. Any other markup type adds the markup as an amount. |
| Config.SalePriceExamples | cjdropship/models/cjdropship_config.py:152-158 | Examples: 30 % on 10.00 gives 13.00, and a fixed 5 on 10.00 gives 15.00. |
| Config.SalePriceNotBelowCost | cjdropship/models/cjdropship_config.py:152-158 | For a configuration that passes the constraints and a cost of at least 0, the sale price is at least the cost. |
| Config.SalePriceMonotone | cjdropship/models/cjdropship_config.py:152-158 | For a configuration that passes the constraints, a higher cost never gives a lower sale price. |
| Config.Validate | cjdropship/models/cjdropship_config.py:76-88 | A configuration passes exactly when `sync_interval >= 1` and `price_markup >= 0`. Each violation gives its own message. |
| Config.DefaultRecordValid | cjdropship/models/cjdropship_config.py:18-55 | The field defaults pass both constraints. |
| Config.GetApiClient | cjdropship/models/cjdropship_config.py:90-96 | A client exists exactly when both credentials are non-empty. It carries them and starts with no token and expiry 0. |
| Config.GetDefaultConfig | cjdropship/models/cjdropship_config.py:160-166 | It fails exactly when no configuration is active. Otherwise it gives an active configuration whose id is the least among the active ones. |
| Config.DefaultIsLeastActive | cjdropship/models/cjdropship_config.py:160-166 | With distinct ids the default is the one active configuration of least id, whatever the order of the store. |
| Config.Browse | cjdropship/controllers/webhook_controller.py:19-20 | It gives the configuration with that id, active or not, or none when no record has that id. |
| Config.TestConnection | cjdropship/models/cjdropship_config.py:98-139 | The status is `connected` exactly when a client exists and the category request succeeds. Otherwise it is `error`. Only the status is written. |
| Config.SyncProducts | cjdropship/models/cjdropship_config.py:141-150 | The import opens for this configuration exactly when the status is `connected`. Otherwise it raises 'Please test the connection first'. |
| Config.SyncNeedsSuccessfulTest | cjdropship/models/cjdropship_config.py:141-145 | An untested configuration cannot sync. After a test it can sync exactly when the test request succeeded. |
| Config.WebhookUrl | cjdropship/models/cjdropship_config.py:66-74 | The address starts with the base and the webhook path. What follows reads back as the id of a saved record, and is `[ID]` for an unsaved one. |
| Config.WebhookUrlNamesConfig | cjdropship/models/cjdropship_config.py:66-74 | The address is the base, then `/cjdropship/webhook/`, then the id's digits, which read back as the id. An unsaved record's address ends in `[ID]`, which reads back as no id. |
| Config.WebhookUrlInjective | cjdropship/models/cjdropship_config.py:66-74 | Two saved configurations with the same address have the same id. |
| Host.IsCjOrderIff | cjdropship/models/sale_order.py:20-26 | A sale order is a supplier order exactly when one of its lines has a supplier product. |
| Host.IsCjOrder | cjdropship/models/sale_order.py:20-26 | A sale order is a supplier order exactly when one of its lines has a supplier product. |
| Orders.Items | cjdropship/models/cjdropship_order.py:134-142 | There is one entry per eligible line, in line order. Each entry holds the product id, the variant id or '', and the truncated quantity. |
| Orders.ItemsComeFromEligibleLines | cjdropship/models/cjdropship_order.py:134-142 | Every entry of the product list comes from an eligible line. |
| Orders.ShippingAddressIsText | cjdropship/models/cjdropship_order.py:148-158 | Every address field is a string. The phone falls back to the mobile number. |
| Orders.PrepareOrderData | cjdropship/models/cjdropship_order.py:126-168 | It fails exactly when no line is eligible. Otherwise the payload holds exactly the eligible lines, the order name, the note or '', and the shipping contact's address (the customer's when there is none). |
| Orders.SubmitAttempt | cjdropship/models/cjdropship_order.py:74-113 | Missing credentials, or no eligible line, fail with nothing written. Otherwise the request body is stored, and a rejected request fails with only that written. With a reply, the reply is stored. The attempt passes exactly when the reply is a dict with a truthy `orderId`, and it then stores that id, `orderNum` or '', and `submitted`. A dict without one fails with 'Failed to get order ID from CJDropshipping'. A reply that is not a dict fails on the `.get`. On failure the id and number are unchanged. Nothing outside the id, number, state and request/response fields is written. |
| Orders.Submit | cjdropship/models/cjdropship_order.py:64-124 | An order that is not a draft is refused and unchanged. A draft without a sale order is refused with 'Sale order is required' and unchanged. Success happens exactly when a draft with a sale order completes the attempt. A failed attempt sets `error` with the message and is raised again, wrapped. The tracking, shipping, link and config fields are kept. |
| Orders.NoEligibleLinesEndsInError | cjdropship/models/cjdropship_order.py:115-145 | With credentials set and no eligible line, the draft ends in `error` with 'No CJDropshipping products found in this order', and no request is stored. |
| Orders.AcceptedSubmission | cjdropship/models/cjdropship_order.py:85-96 | An accepted submission stores the reply's `orderId`, its `orderNum` or '', the request and the response. |
| Orders.ReplyWithOrderIdIsAccepted | cjdropship/models/cjdropship_order.py:85-96 | Conversely, a draft with a sale order, credentials and an eligible line, whose reply carries a truthy `orderId`, is accepted. It is `submitted` with that id and the `orderNum` or ''. |
| Orders.StatusTableShape | cjdropship/models/cjdropship_order.py:237-243 | The table has exactly the five words. None of them leads to `draft` or `error`. |
| Orders.MappedState | cjdropship/models/cjdropship_order.py:237-246 | A status word, upper-cased, selects its table state. An unknown word keeps the current state. A change never leads to `draft` or `error`. |
| Orders.UpdateFromCjData | cjdropship/models/cjdropship_order.py:232-254 | It succeeds exactly on a dict whose status, if present, is a string. The state comes from the table, or stays as it was. The tracking number and shipping method are replaced only when their keys are present. No other field changes. |
| Orders.StatusWords | cjdropship/models/cjdropship_order.py:237-246 | Each table word, in any letter case, moves any order to its local state. |
| Orders.UnknownStatusKeepsState | cjdropship/models/cjdropship_order.py:245-246 | A missing status, or a word not in the table, keeps the state. |
| Orders.UpdateIdempotent | cjdropship/models/cjdropship_order.py:232-254 | Applying the same reply twice gives the record that applying it once gives. |
| Orders.UpdateIsNotMonotonic | cjdropship/models/cjdropship_order.py:245-254 | `PENDING` takes `processing` back to `submitted`. Table words also move `delivered` and `cancelled` orders. |
| Orders.UpdateStatus | cjdropship/models/cjdropship_order.py:170-195 | With no supplier id it raises 'CJ Order ID is required'. A missing client or a failed detail request raises, wrapped, and changes nothing. An empty reply changes nothing. A non-empty reply is applied with `_update_from_cj_data`; if that raises, the error is raised again, wrapped, and nothing changes. The supplier id is never changed. |
| Orders.UpdateStatusIdempotent | cjdropship/models/cjdropship_order.py:170-195 | Refreshing the status again with the same reply changes nothing more. |
| Orders.QueryLogistics | cjdropship/models/cjdropship_order.py:197-230 | With no supplier id it raises. A missing client or a failed request raises, wrapped, and changes nothing. An empty reply changes nothing. A non-empty reply is stored with the time. A non-empty `trackingNumber` in it becomes the order's tracking number; otherwise the number is kept. A reply that is not a dict raises after being stored. The state and id are never touched. |
| Orders.QueryLogisticsIdempotent | cjdropship/models/cjdropship_order.py:197-230 | Querying again with the same reply changes nothing more. |
| Orders.UniqueCjOrderIds | cjdropship/models/cjdropship_order.py:59-62 | No two orders share a supplier order id; NULL ids are exempt. |
| Orders.SubmitInStore | cjdropship/models/cjdropship_order.py:59-62 | Supplier ids stay unique. Only order `k` can change. A new id already held by another order makes the write fail, exactly then, and leaves the store unchanged. Without such a collision, order `k` becomes `Submit`'s order and the outcome is `Submit`'s. |
| Orders.FindByCjOrderId | cjdropship/models/cjdropship_webhook.py:72-74 | It gives the newest order carrying the id, or none when no order carries it. |
| Orders.FindIsUnique | cjdropship/models/cjdropship_order.py:59-62 | When supplier ids are unique, the search finds the only order carrying a non-empty id. |
| Catalog.UniqueKeys | cjdropship/models/cjdropship_product.py:53-56 | No two records share a product id and a non-NULL variant, as the constraint demands. Of the records without a variant, at most one per product is active: the constraint cannot see NULLs, and the import's upsert keeps this. |
| Catalog.SameKeysUnique | cjdropship/models/cjdropship_product.py:53-56 | A write that keeps every record's key and activity keeps the catalog unique. |
| Catalog.FindByProductId | cjdropship/models/cjdropship_webhook.py:114-116 | It gives the first active record with the product id, whatever its variant, or none when there is no such record. |
| Catalog.FindWithoutVariant | cjdropship/wizards/product_import_wizard.py:66-69 | It gives the first active record with the product id and no variant, or none when there is no such record. |
| Catalog.CreateOdooProduct | cjdropship/models/cjdropship_product.py:58-87 | A linked template is overwritten in place and nothing else changes. Otherwise a new template is appended and linked. The template carries the record's name, the configuration's product type and category, the selling price as list price, the supplier price as cost, the description as sale description, the weight, the link back to the record and the supplier flag. `default_code` is written only when there is a SKU. |
| Catalog.BulkCreateProducts | cjdropship/models/cjdropship_product.py:162-166 | Every selected record ends up linked. A selected record without a template changes only in its link, which names a new template publishing that record under the record's own configuration. Records that were already linked, and records that were not selected, are unchanged. Existing templates are kept and the keys are unchanged. |
| Catalog.InventoryStock | cjdropship/models/cjdropship_product.py:133-138 | A stock figure is reported only from a truthy dict reply. |
| Catalog.SyncFromCj | cjdropship/models/cjdropship_product.py:108-160 | It succeeds exactly when a client exists and the detail reply is a non-empty dict whose `sellPrice` converts. A failure changes nothing. On success, the name falls back to the old one, the description to '', and `cj_price` is the converted `sellPrice`. `selling_price` is the markup of `cj_price`. The stock comes from the inventory lookup or stays. A linked template gets both new prices. |
| Catalog.SyncIdempotent | cjdropship/models/cjdropship_product.py:108-160 | Syncing again against the same replies changes nothing more. |
| Catalog.SyncKeepsKeysUnique | cjdropship/models/cjdropship_product.py:121-126 | A sync writes no key and no activity, so the catalog stays unique. |
| Catalog.InventoryFailureKeepsStock | cjdropship/models/cjdropship_product.py:133-138 | A failed inventory lookup does not abort the sync, and the old stock is kept. |
| Catalog.SyncReusesToken | cjdropship/models/cjdropship_product.py:113-134 | Within 7000 s of the detail request, the inventory request reuses its token and never authenticates. |
| ImportWizard.Fill | cjdropship/wizards/product_import_wizard.py:72-86 | The record gets the entry's product id, and its name, SKU, description, category and image ('' when absent). It is priced by the markup, synced now and tied to the configuration. The variant, stock, template link and activity are kept. |
| ImportWizard.ImportEntry | cjdropship/wizards/product_import_wizard.py:59-102 | A non-dict entry aborts the import, and an entry without `pid` is skipped. Otherwise the entry fails, writing nothing, exactly when `sellPrice` or `weight` does not convert. Else the first record of that product without a variant is upserted with the converted price and weight and the entry's five text fields, the rest unchanged. The record is published when requested and not yet linked; otherwise its template link stays as it was (none for a new record). |
| ImportWizard.EntryFailureSkipsEntry | cjdropship/wizards/product_import_wizard.py:100-102 | An entry that fails is logged and passed over: the loop goes on as if it were not there. |
| ImportWizard.ImportEntryKeepsKeysUnique | cjdropship/wizards/product_import_wizard.py:66-92 | An imported entry keeps the catalog keys unique. |
| ImportWizard.ReimportChangesNothing | cjdropship/wizards/product_import_wizard.py:66-92 | Importing the same entry again finds the record just written and changes nothing, so no duplicate is created. |
| ImportWizard.FirstWithoutVariant | cjdropship/wizards/product_import_wizard.py:66-69 | The search finds record `k` when `k` matches and no earlier record does. |
| ImportWizard.ImportFrom | cjdropship/wizards/product_import_wizard.py:59-102 | Folding the entries keeps every template link valid. |
| ImportWizard.ImportFromInvariant | cjdropship/wizards/product_import_wizard.py:55-102 | The fold keeps the keys unique and counts at most one per entry. Every changed or new record was written by this import. Existing templates are kept. |
| ImportWizard.NoPidImportsNothing | cjdropship/wizards/product_import_wizard.py:61-63 | A page whose entries all lack `pid` imports nothing and writes nothing. |
| ImportWizard.EntriesOf | cjdropship/wizards/product_import_wizard.py:54-59 | Only a list yields entries. Anything else raises before the loop writes. |
| ImportWizard.ListOf | cjdropship/wizards/product_import_wizard.py:51-54 | Entries come only from a truthy `list` of a truthy reply. An empty reply raises 'No products found'. |
| ImportWizard.ImportProducts | cjdropship/wizards/product_import_wizard.py:35-129 | It succeeds exactly when a client exists, the list request succeeds, the reply has a non-empty list, and no entry aborts the fold. Success leaves the wizard `done` with the fold's count and the fold's catalog. Any failure leaves it in `draft` with the error, which is raised again, wrapped. Only state, count and error are written on the wizard. |
| ImportWizard.ImportProductsInvariant | cjdropship/wizards/product_import_wizard.py:55-107 | The import keeps the keys unique and the existing templates. Every record it changes or adds was written by it. The count is at most the page's length. |
| ImportWizard.EmptyListFails | cjdropship/wizards/product_import_wizard.py:51-129 | An empty or missing list fails with 'No products found'. The wizard goes back to `draft` and the catalog is untouched. |
| Webhooks.OrderStatusUpdate | cjdropship/models/cjdropship_webhook.py:65-78 | A non-dict payload raises. Without a truthy `orderId` or an order carrying it, the handler succeeds and nothing changes. Otherwise, when `_update_from_cj_data` raises, its error is raised and nothing is written. When it succeeds, the newest order with that id gets exactly that update and is linked. Products are never touched. |
| Webhooks.TrackingUpdate | cjdropship/models/cjdropship_webhook.py:80-103 | The matching order gets the tracking number and `shipped` only when both are present. Otherwise nothing changes. |
| Webhooks.InventoryUpdate | cjdropship/models/cjdropship_webhook.py:105-122 | A non-dict payload raises. Without a truthy `productId`, a quantity, or an active record of that product, nothing changes. Otherwise the first active record of the product gets the quantity as an integer and the sync time, or the conversion's error is raised. Orders are never touched and nothing is linked. |
| Webhooks.Handle | cjdropship/models/cjdropship_webhook.py:48-53 | An `other` record has no handler and writes nothing. |
| Webhooks.Process | cjdropship/models/cjdropship_webhook.py:37-63 | A processed record is left alone. Success marks the record processed, with the date and the linked order. Failure records only the error and leaves the stores unchanged. |
| Webhooks.ProcessTwice | cjdropship/models/cjdropship_webhook.py:41-42 | Processing a record again, at any time, changes nothing more. |
| Webhooks.HandleFailureIgnoresTime | cjdropship/models/cjdropship_webhook.py:65-122 | Whether a handler fails does not depend on the time. |
| Webhooks.OtherTouchesNothing | cjdropship/models/cjdropship_webhook.py:48-58 | An `other` record is marked processed and touches no order or product. |
| Webhooks.TrackingForcesShipped | cjdropship/models/cjdropship_webhook.py:93-98 | A tracking event for an existing order sets `shipped` and the number from any state, and links the record. |
| Webhooks.ProcessKeepsValid | cjdropship/models/cjdropship_webhook.py:37-122 | Processing keeps supplier ids and catalog keys unique and adds no record. |
| Webhooks.FindOrderAfterWrite | cjdropship/models/cjdropship_webhook.py:72-74 | A write that keeps every supplier id does not change which order the search finds. |
| Webhooks.FindProductAfterWrite | cjdropship/models/cjdropship_webhook.py:114-116 | A write that keeps every key and activity does not change which record the search finds. |
| Webhooks.HandleIdempotent | cjdropship/models/cjdropship_webhook.py:65-122 | Running a handler again on the stores it produced, with the same payload, produces them again. |
| WebhookController.Classify | cjdropship/controllers/webhook_controller.py:28-36 | On the lower-cased name: "order" with "status" gives `order_status`; else "tracking" gives `tracking`; else "inventory" or "stock" gives `inventory`; else `other`. |
| WebhookController.ClassifyIgnoresCase | cjdropship/controllers/webhook_controller.py:31-36 | The classification ignores letter case. |
| WebhookController.UnknownEventIsOther | cjdropship/controllers/webhook_controller.py:28-36 | A name without any key word is `other`, and so is the missing event ''. |
| WebhookController.OrderStatusTakesPrecedence | cjdropship/controllers/webhook_controller.py:31-32 | "order" together with "status" gives `order_status`, whatever else the name mentions. |
| WebhookController.TrackingBeforeInventory | cjdropship/controllers/webhook_controller.py:33-36 | "tracking" without both "order" and "status" gives `tracking`, even when stock words are present. |
| WebhookController.ReceiveWebhook | cjdropship/controllers/webhook_controller.py:14-56 | 'Webhook not enabled' is answered exactly for a missing or disabled configuration. Success is answered exactly for a JSON object with a string event. Then a record of the classified type, with `orderId` or '', is logged, and the logged record and the stores are exactly what processing it gives. Otherwise nothing is written. |
| WebhookController.ReceiveKeepsValid | cjdropship/controllers/webhook_controller.py:39-48 | A delivery keeps supplier ids and catalog keys unique. |
| WebhookController.DuplicateDeliverySameStores | cjdropship/controllers/webhook_controller.py:39-48 | Delivering the same event twice leaves the orders and products as one delivery does. |
| WebhookController.OrderStatusChangedIsOrderStatus | cjdropship/controllers/webhook_controller.py:31-32 | Example: the event name `orderStatusChanged` is classified `order_status`. |
| WebhookController.ShippedNoticeScenario | cjdropship/controllers/webhook_controller.py:14-52 | Example: a shipped status event for a submitted order is acknowledged, moves the order to `shipped`, and links the logged record. |
| Sales.Link | cjdropship/models/sale_order.py:50-58 | A draft order for the sale order is appended and linked. Nothing else changes, and the integrity of the shop is kept. |
| Sales.AutoSubmit | cjdropship/models/sale_order.py:60-69 | The order is submitted in the store. A failure is posted on that sale order only and is not raised. Integrity is kept. |
| Sales.LinkAndFulfil | cjdropship/models/sale_order.py:50-69 | A new order under the configuration is appended and linked. Without auto-fulfilment it stays a draft. With it, the orders are exactly what submitting the new order in the store gives, and a failed submission is posted on the sale order. Integrity is kept. |
| Sales.CreateCjOrder | cjdropship/models/sale_order.py:43-71 | A linked order is returned and nothing is written. It fails exactly when there is no link and no default configuration. Otherwise a new order for the sale order under the default configuration is linked (still a draft without auto-fulfilment; with it, the orders are exactly what submitting the new order gives, and a failure is posted on the sale order), and other sale orders are unchanged. |
| Sales.CreateCjOrderIdempotent | cjdropship/models/sale_order.py:47-48 | Asking again gives the same order and writes nothing. |
| Sales.AutoSubmitFailureIsPosted | cjdropship/models/sale_order.py:61-69 | With auto-fulfilment, a rejected submission still creates and links the order, and posts exactly one failure note. |
| Sales.Confirm | cjdropship/models/sale_order.py:28-41 | An order is created exactly for a supplier sale order with no link whose default configuration auto-fulfils. The result is then `CreateCjOrder`'s, so the new order is submitted at once. The new order belongs to that sale order and to the default configuration. Otherwise nothing changes. Existing orders and other sale orders are kept. It never raises, and integrity is kept. |
| Sales.ConfirmStep | cjdropship/models/sale_order.py:32-37 | One confirmation keeps earlier links and links the next qualifying sale order. |
| Sales.CreatedStep | cjdropship/models/sale_order.py:32-37 | One confirmation keeps the orders created so far and creates the next one when it is due. |
| Sales.ConfirmAll | cjdropship/models/sale_order.py:28-41 | When auto-fulfilment is on, confirming a selection links every selected supplier sale order. Each one that had no link gets a new order of its own under the default configuration. It keeps existing orders, links, lines and integrity. |
| Sales.ManualSubmit | cjdropship/models/sale_order.py:73-91 | A sale order without supplier lines is refused. An unlinked one goes through creation. A linked one is submitted under its own configuration, with failures raised. |
| Sales.ManualSubmitWithoutAutoFulfilOnlyCreates | cjdropship/models/sale_order.py:80-81 | Without auto-fulfilment, a manual submission of an unlinked sale order only creates a draft, and no request is sent. |
| Sales.ErroredOrderIsStuck | cjdropship/models/sale_order.py:80-83 | An order in `error` cannot be resubmitted from its sale order: the submission is refused and nothing changes. |

## Left out

- The HTTP transport is left out: `requests` calls, timeouts and connection details. Each reply is a parameter (`Api.Reply`). A connection error, an HTTP error status and a non-JSON body are each one error value.
- All logging is left out, including the debug logging of credentials and replies during authentication.
- The image download and base64 encoding in `action_create_odoo_product` are left out. They are network I/O.
- JSON text is left out. Requests, replies, payloads and headers are stored as values, not as `json.dumps` text. A stored webhook payload that is not JSON cannot occur in the model.
- The text of exception messages (`str(e)`) is left out. The `Error` value stands for its text.
- Chatter notes (`message_post`) are left out, except the submission failure posted by `_create_cjdropship_order`. These notes are: the success note of a submission, the tracking-number note of `_update_from_cj_data`, and the tracking note of the tracking webhook. They have no effect on any state.
- The action and notification dicts returned to the UI are left out, and so are `action_view_*` and the `/cjdropship/webhook/test` endpoint. The JSON-RPC envelope of the `type='json'` route is left out too. The endpoint's answer is `WebhookController.Ack`.
- Transaction rollback is left out, except for the unique constraint on `cj_order_id`. The model keeps the writes made before an exception, although Odoo rolls them back when the exception reaches the UI. Only where the code catches the exception (the auto-submission, the per-entry handler of the import) does the real database keep them as the model does. A violation of that constraint leaves the order store unchanged (`Orders.SubmitInStore`). After such a violation the model still posts the failure note, which a real database would reject in the aborted transaction.
- Concurrency is left out. The unique constraint on `(cj_product_id, cj_variant_id)` is kept as a store invariant (`Catalog.UniqueKeys`) that the operations preserve.
- Floating point is left out: prices and weights are exact `real`s. Case mapping is ASCII-only.
- Values.ToInt: of the text forms `int()` accepts, only an optionally signed run of digits is modelled. Surrounding whitespace and underscores between digits are refused, though Python accepts them.
- Values.ToFloat: of the text forms `float()` accepts, only an optionally signed decimal is modelled: digits with an optional point, where one side of the point may be empty (`5.`, `.5`). Exponents (`1e3`), `inf`, `infinity`, `nan`, surrounding whitespace and underscores are refused, though Python accepts them.
- Odoo's required-field checks and its coercion of non-string values into Char fields are left out. Values are stored as given.
- The wall clock is left out. `Datetime.now()` and `time.time()` are the abstract `now` parameter.
- `product_template.py` is not part of this model. Only its supplier flag and link appear, on sale lines and templates.
- Sales.ConfirmAll: states which order each qualifying sale order is linked to, but not the submission of each new order; `Sales.Confirm` states that one confirmation is exactly `Sales.CreateCjOrder`, including the submission.
- Catalog.InventoryStock: states only that a figure needs a truthy dict reply, not which figure. `Catalog.SyncFromCj` states how the figure is used.
- ImportWizard.ImportFrom: states only that template links stay valid. `ImportWizard.ImportFromInvariant` carries the properties of the fold.
- Webhooks.Handle: states only the `other` case. The other cases are the contracts of the three handlers it dispatches to.

=== FILE: api.dfy ===
/** The supplier API client (`CJDropshippingAPI`): the cached access token with
    its expiry, authentication, the reply-envelope check of every request, and
    the requests each remote operation builds.

    The HTTP transport is abstract: a request's outcome is a `Reply` supplied
    by the caller, and the clock is an integer number of seconds. */
module Api {
  import opened Wrappers
  import opened Values

  const BaseUrl: string := "https://developers.cjdropshipping.com/api2.0/v1"

  /** Seconds a new token is trusted for, counted from the moment it arrives. */
  const TokenLifetime: int := 7000

  datatype Client = Client(email: string, password: string, accessToken: Value, tokenExpiry: int)

  /** What the HTTP layer hands back for one request: nothing (connection
      error or timeout), or a status code and a body that is JSON or not. */
  datatype Reply = Unreachable | Response(status: int, body: Option<Value>)

  /** The replies the authentication endpoint and the operation's endpoint
      would give; the first is consulted only when the token is refreshed. */
  datatype Exchange = Exchange(auth: Reply, reply: Reply)

  datatype Request = Request(verb: string, endpoint: string, params: map<string, Value>, body: Option<Value>)

  /** A client's state after a call together with what the call returned. */
  datatype Step = Step(client: Client, result: Result<Value, Error>)

  /** A client as `get_api_client` builds it: no token, expiry 0. */
  function NewClient(email: string, password: string): Client {
    Client(email, password, Null, 0)
  }

  /** `_get_headers` refreshes when there is no usable token or it has expired. */
  function NeedsRefresh(c: Client, now: int): (due: bool)
    ensures !Truthy(c.accessToken) ==> due
    ensures Truthy(c.accessToken) ==> (due <==> c.tokenExpiry <= now)
  {
    !Truthy(c.accessToken) || now >= c.tokenExpiry
  }

  /** `raise_for_status` rejects client and server error codes. */
  predicate IsHttpError(status: int) {
    400 <= status < 600
  }

  /** The JSON body of a reply, with the exceptions `requests` raises first. */
  function Body(reply: Reply): (r: Result<Value, Error>)
    ensures r.Success? <==> reply.Response? && !IsHttpError(reply.status) && reply.body.Some?
    ensures r.Success? ==> r.value == reply.body.value
  {
    match reply
    case Unreachable => Failure(ConnectionFailed)
    case Response(status, body) =>
      if IsHttpError(status) then Failure(HttpStatus(status))
      else if body.None? then Failure(NotJson)
      else Success(body.value)
  }

  /** An authentication reply is accepted when `code == 200`, `result` is truthy
      and `data.accessToken` can be read. */
  predicate AuthAccepted(reply: Reply) {
    && Body(reply).Success?
    && var data := Body(reply).value;
    && data.Obj?
    && EqualsInt(Get(data, "code", Null).value, 200)
    && Truthy(Get(data, "result", Null).value)
    && Index(data, "data").Success?
    && Index(Index(data, "data").value, "accessToken").Success?
  }

  /** `_authenticate`: on success the token is replaced and its expiry set to
      `now + 7000`; on any failure the client keeps its previous token and
      expiry. A rejection carries the reply's `message`, or 'Unknown error'. */
  function Authenticate(c: Client, now: int, reply: Reply): (s: Step)
    ensures s.result.Success? <==> AuthAccepted(reply)
    ensures s.result.Success? ==>
      && s.client == c.(accessToken := s.result.value, tokenExpiry := now + TokenLifetime)
      && s.result.value == Index(Index(Body(reply).value, "data").value, "accessToken").value
    ensures s.result.Failure? ==> s.client == c
    ensures Body(reply).Success? && Body(reply).value.Obj?
            && !(EqualsInt(Get(Body(reply).value, "code", Null).value, 200)
                 && Truthy(Get(Body(reply).value, "result", Null).value)) ==>
      s.result == Failure(AuthenticationFailed(Get(Body(reply).value, "message", Str("Unknown error")).value))
  {
    match Body(reply)
    case Failure(e) => Step(c, Failure(e))
    case Success(data) =>
      match Get(data, "code", Null)
      case Failure(e) => Step(c, Failure(e))
      case Success(code) =>
        if EqualsInt(code, 200) && Truthy(Get(data, "result", Null).value) then
          match Index(data, "data")
          case Failure(e) => Step(c, Failure(e))
          case Success(inner) =>
            match Index(inner, "accessToken")
            case Failure(e) => Step(c, Failure(e))
            case Success(token) =>
              Step(c.(accessToken := token, tokenExpiry := now + TokenLifetime), Success(token))
        else
          Step(c, Failure(AuthenticationFailed(Get(data, "message", Str("Unknown error")).value)))
  }

  /** `_get_headers`: the token the request will carry, authenticating first
      when `NeedsRefresh`. The authentication reply is used only then. */
  function GetToken(c: Client, now: int, auth: Reply): (s: Step)
    ensures !NeedsRefresh(c, now) ==> s == Step(c, Success(c.accessToken))
    ensures NeedsRefresh(c, now) ==> s == Authenticate(c, now, auth)
  {
    if NeedsRefresh(c, now) then Authenticate(c, now, auth)
    else Step(c, Success(c.accessToken))
  }

  /** The envelope check of `_make_request`: a reply whose `code` is not 200 is
      an error even when HTTP succeeded; otherwise the result is `data`, or an
      empty object when the reply has none. */
  function Envelope(reply: Reply): (r: Result<Value, Error>)
    ensures r.Success? <==>
      Body(reply).Success? && Body(reply).value.Obj?
      && EqualsInt(Get(Body(reply).value, "code", Null).value, 200)
    ensures r.Success? ==>
      r.value == (var m := Body(reply).value.fields; if "data" in m then m["data"] else Obj(map[]))
    ensures Body(reply).Success? && Body(reply).value.Obj?
            && !EqualsInt(Get(Body(reply).value, "code", Null).value, 200) ==>
      r == Failure(ApiFailure(Get(Body(reply).value, "message", Str("Unknown error")).value))
  {
    match Body(reply)
    case Failure(e) => Failure(e)
    case Success(result) =>
      match Get(result, "code", Null)
      case Failure(e) => Failure(e)
      case Success(code) =>
        if !EqualsInt(code, 200) then
          Failure(ApiFailure(Get(result, "message", Str("Unknown error")).value))
        else
          Get(result, "data", Obj(map[]))
  }

  predicate SupportedVerb(verb: string) {
    verb == "GET" || verb == "POST" || verb == "PUT"
  }

  /** `_make_request`: obtain the token (which may authenticate), refuse verbs
      other than GET, POST and PUT, then check the reply's envelope. */
  function MakeRequest(c: Client, now: int, req: Request, ex: Exchange): (s: Step)
    ensures GetToken(c, now, ex.auth).result.Failure? ==> s == GetToken(c, now, ex.auth)
    ensures GetToken(c, now, ex.auth).result.Success? ==>
      && s.client == GetToken(c, now, ex.auth).client
      && (!SupportedVerb(req.verb) ==> s.result == Failure(UnsupportedMethod(req.verb)))
      && (SupportedVerb(req.verb) ==> s.result == Envelope(ex.reply))
  {
    var h := GetToken(c, now, ex.auth);
    if h.result.Failure? then h
    else if !SupportedVerb(req.verb) then Step(h.client, Failure(UnsupportedMethod(req.verb)))
    else Step(h.client, Envelope(ex.reply))
  }

  // ---------------------------------------------------------------------------
  // Requests of the remote operations

  function ProductList(page: int, pageSize: int, category: Value): (r: Request)
    ensures r.verb == "GET" && r.endpoint == "/product/list"
    ensures "pageNum" in r.params && r.params["pageNum"] == Int(page)
    ensures "pageSize" in r.params && r.params["pageSize"] == Int(pageSize)
    ensures "categoryId" in r.params <==> Truthy(category)
    ensures "categoryId" in r.params ==> r.params["categoryId"] == category
    ensures r.params.Keys <= {"pageNum", "pageSize", "categoryId"}
  {
    var params := map["pageNum" := Int(page), "pageSize" := Int(pageSize)];
    Request("GET", "/product/list",
            if Truthy(category) then params["categoryId" := category] else params, None)
  }

  function ProductDetail(pid: Value): Request {
    Request("GET", "/product/query", map["pid" := pid], None)
  }

  function ProductVariant(pid: Value): Request {
    Request("GET", "/product/variant/query", map["pid" := pid], None)
  }

  function ProductInventory(pid: Value, vid: Value): (r: Request)
    ensures r.verb == "GET" && r.endpoint == "/product/inventory/query"
    ensures "pid" in r.params && r.params["pid"] == pid
    ensures "vid" in r.params <==> Truthy(vid)
    ensures "vid" in r.params ==> r.params["vid"] == vid
    ensures r.params.Keys <= {"pid", "vid"}
  {
    var params := map["pid" := pid];
    Request("GET", "/product/inventory/query",
            if Truthy(vid) then params["vid" := vid] else params, None)
  }

  function CreateOrder(orderData: Value): Request {
    Request("POST", "/shopping/order/createOrder", map[], Some(orderData))
  }

  function OrderDetail(orderId: Value): Request {
    Request("GET", "/shopping/order/query", map["orderId" := orderId], None)
  }

  function OrderList(page: int, pageSize: int): Request {
    Request("GET", "/shopping/order/list", map["pageNum" := Int(page), "pageSize" := Int(pageSize)], None)
  }

  function ShippingMethods(products: Value, countryCode: Value): Request {
    Request("POST", "/logistic/freightCalculate", map[],
            Some(Obj(map["products" := products, "countryCode" := countryCode])))
  }

  function QueryLogistics(orderId: Value): Request {
    Request("GET", "/logistic/trackQuery", map["orderId" := orderId], None)
  }

  function Categories(): Request {
    Request("GET", "/product/categoryList", map[], None)
  }

  /** Every remote operation, whatever its arguments, uses a verb
      `_make_request` accepts; each verb is a constant of its operation. */
  lemma OperationsUseSupportedVerbs(page: int, size: int, v: Value, w: Value)
    ensures SupportedVerb(ProductList(page, size, v).verb)
    ensures SupportedVerb(ProductDetail(v).verb) && SupportedVerb(ProductVariant(v).verb)
    ensures SupportedVerb(ProductInventory(v, w).verb) && SupportedVerb(CreateOrder(v).verb)
    ensures SupportedVerb(OrderDetail(v).verb) && SupportedVerb(OrderList(page, size).verb)
    ensures SupportedVerb(ShippingMethods(v, w).verb) && SupportedVerb(QueryLogistics(v).verb)
    ensures SupportedVerb(Categories().verb)
  {
  }

  // ---------------------------------------------------------------------------
  // The token cache over time

  /** A client straight from `get_api_client` authenticates on its first
      request, whatever the clock says. */
  lemma FreshClientAuthenticates(email: string, password: string, now: int, auth: Reply)
    ensures NeedsRefresh(NewClient(email, password), now)
    ensures GetToken(NewClient(email, password), now, auth) == Authenticate(NewClient(email, password), now, auth)
  {
  }

  /** The authentication endpoint is consulted exactly when `NeedsRefresh`: an
      unreachable endpoint makes the call fail if and only if a refresh is due. */
  lemma RefreshIffDue(c: Client, now: int)
    ensures GetToken(c, now, Unreachable).result.Failure? <==> NeedsRefresh(c, now)
  {
  }

  /** A token obtained at `now` is reused for every request before
      `now + 7000` and refreshed from then on, with no safety margin. */
  lemma TokenWindow(c: Client, now: int, auth: Reply, later: int)
    requires Authenticate(c, now, auth).result.Success?
    requires Truthy(Authenticate(c, now, auth).result.value)
    ensures now <= later < now + TokenLifetime ==>
      !NeedsRefresh(Authenticate(c, now, auth).client, later)
    ensures later >= now + TokenLifetime ==>
      NeedsRefresh(Authenticate(c, now, auth).client, later)
  {
  }

  /** A failed authentication leaves the cache as it was, so a due refresh is
      still due on the next request. */
  lemma FailedRefreshStaysDue(c: Client, now: int, auth: Reply)
    requires NeedsRefresh(c, now)
    requires GetToken(c, now, auth).result.Failure?
    ensures GetToken(c, now, auth).client == c
    ensures NeedsRefresh(GetToken(c, now, auth).client, now)
  {
  }

  /** A reply with HTTP 200 whose envelope carries another code is an error. */
  lemma ApiErrorDespiteHttpOk(code: int, message: Value)
    requires code != 200
    ensures Envelope(Response(200, Some(Obj(map["code" := Int(code), "message" := message]))))
            == Failure(ApiFailure(message))
  {
  }
}

=== FILE: catalog.dfy ===
/** The supplier catalog record (`cjdropship.product`), the host product
    templates it is published as, the `(cj_product_id, cj_variant_id)`
    uniqueness of the catalog, the sync of one record from the supplier, and
    the creation of host products from catalog records. */
module Catalog {
  import opened Wrappers
  import opened Values
  import Api
  import Config

  datatype Product = Product(
    productId: Value,             // cj_product_id
    name: Value,                  // cj_product_name
    sku: Value,                   // cj_product_sku
    variantId: Value,             // cj_variant_id, Null when the record is the product itself
    description: Value,
    categoryName: Value,
    cjPrice: real,
    sellingPrice: real,
    stockQty: int,
    imageUrl: Value,
    weight: real,
    template: Option<nat>,        // product_tmpl_id, as an index of the template store
    configId: nat,
    active: bool,
    syncDate: Option<int>)

  /** The host product template fields the integration writes. */
  datatype Template = Template(
    name: Value,
    kind: Config.ProductType,
    categId: Option<nat>,
    listPrice: real,
    standardPrice: real,
    descriptionSale: Value,
    weight: real,
    cjProduct: Option<nat>,       // cjdropship_product_id, as an index of the catalog
    isCj: bool,
    defaultCode: Value)

  // ---------------------------------------------------------------------------
  // Uniqueness of (cj_product_id, cj_variant_id)

  /** Two variant fields name the same variant: equal, or both NULL. */
  predicate SameVariant(a: Value, b: Value) {
    a == b || (StoredAsNull(a) && StoredAsNull(b))
  }

  /** No two records share a product id and a (non-NULL) variant id, as the SQL
      constraint demands; and no two active records share a product id without
      a variant, which the SQL constraint cannot see (NULLs never collide) and
      the import's upsert maintains. */
  predicate UniqueKeys(ps: seq<Product>) {
    forall i, j ::
      (0 <= i < |ps| && 0 <= j < |ps| && i != j
       && ps[i].productId == ps[j].productId && SameVariant(ps[i].variantId, ps[j].variantId)) ==>
      StoredAsNull(ps[i].variantId) && !(ps[i].active && ps[j].active)
  }

  /** Every template link of the catalog points into the template store. */
  predicate LinksValid(ps: seq<Product>, ts: seq<Template>) {
    forall i :: 0 <= i < |ps| && ps[i].template.Some? ==> ps[i].template.value < |ts|
  }

  /** Two catalogs carry the same keys and activity at every position. */
  predicate SameKeys(ps: seq<Product>, qs: seq<Product>) {
    |ps| == |qs| &&
    forall i :: 0 <= i < |ps| ==>
      qs[i].productId == ps[i].productId && qs[i].variantId == ps[i].variantId && qs[i].active == ps[i].active
  }

  /** Writing fields other than the key and `active` keeps the catalog unique. */
  lemma SameKeysUnique(ps: seq<Product>, qs: seq<Product>)
    requires UniqueKeys(ps) && SameKeys(ps, qs)
    ensures UniqueKeys(qs)
  {
  }

  /** `search([('cj_product_id', '=', pid)], limit=1)`: the first active record
      with that product id, whatever its variant. */
  function FindByProductId(ps: seq<Product>, pid: Value): (r: Option<nat>)
    ensures r.Some? ==> r.value < |ps| && ps[r.value].active && ps[r.value].productId == pid
    ensures r.Some? ==> forall j :: 0 <= j < r.value ==> !(ps[j].active && ps[j].productId == pid)
    ensures r.None? ==> forall j :: 0 <= j < |ps| ==> !(ps[j].active && ps[j].productId == pid)
  {
    if |ps| == 0 then None
    else if ps[0].active && ps[0].productId == pid then Some(0)
    else match FindByProductId(ps[1..], pid)
      case Some(k) => Some(k + 1)
      case None => None
  }

  /** `search([('cj_product_id', '=', pid), ('cj_variant_id', '=', False)], limit=1)`. */
  function FindWithoutVariant(ps: seq<Product>, pid: Value): (r: Option<nat>)
    ensures r.Some? ==> r.value < |ps| && ps[r.value].active && ps[r.value].productId == pid
                        && StoredAsNull(ps[r.value].variantId)
    ensures r.Some? ==> forall j :: 0 <= j < r.value ==>
      !(ps[j].active && ps[j].productId == pid && StoredAsNull(ps[j].variantId))
    ensures r.None? ==> forall j :: 0 <= j < |ps| ==>
      !(ps[j].active && ps[j].productId == pid && StoredAsNull(ps[j].variantId))
  {
    if |ps| == 0 then None
    else if ps[0].active && ps[0].productId == pid && StoredAsNull(ps[0].variantId) then Some(0)
    else match FindWithoutVariant(ps[1..], pid)
      case Some(k) => Some(k + 1)
      case None => None
  }

  // ---------------------------------------------------------------------------
  // Publishing as a host product (`action_create_odoo_product`)

  /** The template a catalog record is published as. `default_code` is only
      written when the record has a SKU, so otherwise `previousCode` stays. */
  function TemplateFor(p: Product, self: nat, config: Config.Config, previousCode: Value): Template {
    Template(p.name, config.defaultProductType, config.defaultCategId, p.sellingPrice, p.cjPrice,
             p.description, p.weight, Some(self), true, if Truthy(p.sku) then p.sku else previousCode)
  }

  /** Template `t` publishes catalog record `p` (number `self`) under `config`:
      it carries every field `action_create_odoo_product` writes. */
  predicate Publishes(t: Template, p: Product, self: nat, config: Config.Config) {
    && t.name == p.name && t.kind == config.defaultProductType && t.categId == config.defaultCategId
    && t.listPrice == p.sellingPrice && t.standardPrice == p.cjPrice
    && t.descriptionSale == p.description && t.weight == p.weight
    && t.cjProduct == Some(self) && t.isCj
    && (Truthy(p.sku) ==> t.defaultCode == p.sku)
  }

  /** `action_create_odoo_product` for catalog record `self`: a linked template
      is overwritten in place; otherwise a new template is created and linked.
      Either way the template sells at the selling price and costs the supplier
      price. The image download is not modelled. */
  function CreateOdooProduct(ps: seq<Product>, self: nat, config: Config.Config, ts: seq<Template>)
    : (r: (seq<Product>, seq<Template>))
    requires self < |ps| && LinksValid(ps, ts)
    ensures |r.0| == |ps| && LinksValid(r.0, r.1)
    ensures r.0[self].template.Some? && r.0[self].template.value < |r.1|
    ensures var t := r.1[r.0[self].template.value];
      && t.listPrice == ps[self].sellingPrice && t.standardPrice == ps[self].cjPrice
      && t.isCj && t.cjProduct == Some(self) && t.name == ps[self].name
      && (Truthy(ps[self].sku) ==> t.defaultCode == ps[self].sku)
      && t.kind == config.defaultProductType && t.categId == config.defaultCategId
      && t.descriptionSale == ps[self].description && t.weight == ps[self].weight
    ensures Publishes(r.1[r.0[self].template.value], ps[self], self, config)
    ensures ps[self].template.Some? ==>
      && r.0 == ps && |r.1| == |ts|
      && r.1 == ts[ps[self].template.value := r.1[ps[self].template.value]]
      && (!Truthy(ps[self].sku) ==> r.1[ps[self].template.value].defaultCode == ts[ps[self].template.value].defaultCode)
    ensures ps[self].template.None? ==>
      && |r.1| == |ts| + 1 && r.1[..|ts|] == ts && r.0 == ps[self := ps[self].(template := Some(|ts|))]
      && (!Truthy(ps[self].sku) ==> r.1[|ts|].defaultCode == Null)
  {
    var p := ps[self];
    match p.template
    case Some(t) => (ps, ts[t := TemplateFor(p, self, config, ts[t].defaultCode)])
    case None => (ps[self := p.(template := Some(|ts|))], ts + [TemplateFor(p, self, config, Null)])
  }

  /** `action_bulk_create_products`: publishes every selected record that has
      no template yet and leaves the linked ones, and every existing template,
      alone. `configOf` gives each record's configuration. */
  method BulkCreateProducts(ps: seq<Product>, selection: seq<nat>, configOf: map<nat, Config.Config>, ts: seq<Template>)
    returns (ps': seq<Product>, ts': seq<Template>)
    requires LinksValid(ps, ts)
    requires forall k :: 0 <= k < |selection| ==> selection[k] < |ps| && ps[selection[k]].configId in configOf
    ensures LinksValid(ps', ts') && SameKeys(ps, ps')
    ensures |ts'| >= |ts| && ts'[..|ts|] == ts
    ensures forall k :: 0 <= k < |selection| ==> ps'[selection[k]].template.Some?
    ensures forall i :: 0 <= i < |ps| && ps[i].template.Some? ==> ps'[i] == ps[i]
    ensures forall i :: 0 <= i < |ps| && i !in selection ==> ps'[i] == ps[i]
    ensures forall k :: 0 <= k < |selection| && ps[selection[k]].template.None? ==>
      var i := selection[k];
      && ps'[i] == ps[i].(template := ps'[i].template)
      && |ts| <= ps'[i].template.value < |ts'|
      && Publishes(ts'[ps'[i].template.value], ps[i], i, configOf[ps[i].configId])
  {
    ps', ts' := ps, ts;
    var n := 0;
    while n < |selection|
      invariant 0 <= n <= |selection|
      invariant LinksValid(ps', ts') && SameKeys(ps, ps')
      invariant |ts'| >= |ts| && ts'[..|ts|] == ts
      invariant forall k :: 0 <= k < n ==> ps'[selection[k]].template.Some?
      invariant forall i :: 0 <= i < |ps| && ps[i].template.Some? ==> ps'[i] == ps[i]
      invariant forall i :: 0 <= i < |ps| && i !in selection[..n] ==> ps'[i] == ps[i]
      invariant forall i :: 0 <= i < |ps| && ps'[i].template.None? ==> ps'[i] == ps[i]
      invariant forall k :: 0 <= k < n && ps[selection[k]].template.None? ==>
        var i := selection[k];
        && ps'[i] == ps[i].(template := ps'[i].template)
        && |ts| <= ps'[i].template.value < |ts'|
        && Publishes(ts'[ps'[i].template.value], ps[i], i, configOf[ps[i].configId])
    {
      var i := selection[n];
      if ps'[i].template.None? {
        assert ps'[i].configId == ps[i].configId;
        var old_ts := ts';
        var created := CreateOdooProduct(ps', i, configOf[ps'[i].configId], ts');
        ps', ts' := created.0, created.1;
        assert ts'[..|ts|] == old_ts[..|ts|];
      }
      assert selection[..n + 1] == selection[..n] + [i];
      n := n + 1;
    }
    assert selection[..n] == selection;
  }

  // ---------------------------------------------------------------------------
  // Sync of one record (`action_sync_from_cj`)

  /** The stock the inventory lookup reports, or `None` when the lookup fails in
      any way (request, empty reply, non-object reply, bad quantity); the
      failure is swallowed. */
  function InventoryStock(inventory: Result<Value, Error>): (r: Option<int>)
    ensures r.Some? ==> inventory.Success? && Truthy(inventory.value) && inventory.value.Obj?
  {
    match inventory
    case Failure(_) => None
    case Success(inv) =>
      if !Truthy(inv) then None
      else match Get(inv, "quantity", Int(0))
        case Failure(_) => None
        case Success(q) =>
          match ToInt(q)
          case Failure(_) => None
          case Success(n) => Some(n)
  }

  /** The outcome of a sync: the record, the template store, and what was raised. */
  datatype Sync = Sync(product: Product, templates: seq<Template>, outcome: Outcome<Error>)

  /** `action_sync_from_cj` for catalog record `self`: fetch the detail at
      `now` and the inventory at `later` with the same client (so the token of
      the first request is reused while it is valid). The name falls back to
      the old one, the description to '', the price to 0; the selling price is
      recomputed; the stock changes only when the inventory lookup succeeds; a
      linked template gets the new prices. Any other failure changes nothing. */
  function SyncFromCj(p: Product, config: Config.Config, ts: seq<Template>, now: int, ex: Api.Exchange,
                      later: int, inventoryEx: Api.Exchange): (r: Sync)
    requires p.template.Some? ==> p.template.value < |ts|
    ensures r.outcome.Fail? ==> r.product == p && r.templates == ts
    ensures r.outcome.Pass? ==>
      && r.product.sellingPrice == Config.SalePrice(config, r.product.cjPrice)
      && r.product.syncDate == Some(now)
      && r.product == p.(name := r.product.name, description := r.product.description,
                         cjPrice := r.product.cjPrice, sellingPrice := r.product.sellingPrice,
                         stockQty := r.product.stockQty, syncDate := r.product.syncDate)
    ensures |r.templates| == |ts|
    ensures r.outcome.Pass? <==>
      && Config.GetApiClient(config).Success?
      && var detail := Api.MakeRequest(Config.GetApiClient(config).value, now, Api.ProductDetail(p.productId), ex);
         && detail.result.Success? && Truthy(detail.result.value) && detail.result.value.Obj?
         && ToFloat(Get(detail.result.value, "sellPrice", Int(0)).value).Success?
    ensures r.outcome.Pass? ==>
      var data := Api.MakeRequest(Config.GetApiClient(config).value, now, Api.ProductDetail(p.productId), ex).result.value;
      && r.product.cjPrice == ToFloat(Get(data, "sellPrice", Int(0)).value).value
      && r.product.description == Get(data, "description", Str("")).value
    ensures r.outcome.Pass? ==>
      var detail := Api.MakeRequest(Config.GetApiClient(config).value, now, Api.ProductDetail(p.productId), ex);
      && r.product.name == (if "productNameEn" in detail.result.value.fields
                            then detail.result.value.fields["productNameEn"] else p.name)
      && r.product.stockQty ==
           InventoryStock(Api.MakeRequest(detail.client, later, Api.ProductInventory(p.productId, p.variantId), inventoryEx).result)
             .GetOr(p.stockQty)
    ensures r.outcome.Pass? && p.template.None? ==> r.templates == ts
    ensures r.outcome.Pass? && p.template.Some? ==>
      && r.templates == ts[p.template.value := r.templates[p.template.value]]
      && r.templates[p.template.value] == ts[p.template.value].(listPrice := r.product.sellingPrice,
                                                               standardPrice := r.product.cjPrice)
  {
    match Config.GetApiClient(config)
    case Failure(e) => Sync(p, ts, Fail(Wrapped("Failed to sync product: %s", e)))
    case Success(client) =>
      var detail := Api.MakeRequest(client, now, Api.ProductDetail(p.productId), ex);
      match detail.result
      case Failure(e) => Sync(p, ts, Fail(Wrapped("Failed to sync product: %s", e)))
      case Success(data) =>
        if !Truthy(data) then
          Sync(p, ts, Fail(Wrapped("Failed to sync product: %s", UserError("Product not found in CJDropshipping"))))
        else
          match Get(data, "productNameEn", p.name)
          case Failure(e) => Sync(p, ts, Fail(Wrapped("Failed to sync product: %s", e)))
          case Success(name) =>
            match ToFloat(Get(data, "sellPrice", Int(0)).value)
            case Failure(e) => Sync(p, ts, Fail(Wrapped("Failed to sync product: %s", e)))
            case Success(price) =>
              var inventory := Api.MakeRequest(detail.client, later, Api.ProductInventory(p.productId, p.variantId), inventoryEx);
              var p1 := p.(name := name, description := Get(data, "description", Str("")).value,
                           cjPrice := price, sellingPrice := Config.SalePrice(config, price),
                           stockQty := InventoryStock(inventory.result).GetOr(p.stockQty),
                           syncDate := Some(now));
              match p.template
              case None => Sync(p1, ts, Pass)
              case Some(t) =>
                Sync(p1, ts[t := ts[t].(listPrice := p1.sellingPrice, standardPrice := p1.cjPrice)], Pass)
  }

  /** A failed inventory lookup does not abort the sync: with a usable detail
      reply the sync succeeds and keeps the previous stock. */
  lemma InventoryFailureKeepsStock(p: Product, config: Config.Config, ts: seq<Template>, now: int,
                                   ex: Api.Exchange, later: int, inventoryEx: Api.Exchange)
    requires p.template.Some? ==> p.template.value < |ts|
    requires Config.GetApiClient(config).Success?
    requires var d := Api.MakeRequest(Config.GetApiClient(config).value, now, Api.ProductDetail(p.productId), ex);
      && d.result.Success? && d.result.value.Obj? && Truthy(d.result.value)
      && ToFloat(Get(d.result.value, "sellPrice", Int(0)).value).Success?
      && Api.MakeRequest(d.client, later, Api.ProductInventory(p.productId, p.variantId), inventoryEx).result.Failure?
    ensures SyncFromCj(p, config, ts, now, ex, later, inventoryEx).outcome.Pass?
    ensures SyncFromCj(p, config, ts, now, ex, later, inventoryEx).product.stockQty == p.stockQty
  {
  }

  /** Syncing a second time against the same replies changes nothing more:
      every written field is read from the replies, and the name falls back to
      the one the first sync wrote. */
  lemma SyncIdempotent(p: Product, config: Config.Config, ts: seq<Template>, now: int, ex: Api.Exchange,
                       later: int, inventoryEx: Api.Exchange)
    requires p.template.Some? ==> p.template.value < |ts|
    ensures var r := SyncFromCj(p, config, ts, now, ex, later, inventoryEx);
      SyncFromCj(r.product, config, r.templates, now, ex, later, inventoryEx) == r
  {
    var r := SyncFromCj(p, config, ts, now, ex, later, inventoryEx);
    if r.outcome.Pass? && p.template.Some? {
      var t := p.template.value;
      assert r.templates[t := r.templates[t].(listPrice := r.product.sellingPrice, standardPrice := r.product.cjPrice)]
          == r.templates;
    }
  }

  /** A sync writes neither the key nor `active` of the record, so the
      catalog stays unique when the synced record is stored back. */
  lemma SyncKeepsKeysUnique(ps: seq<Product>, k: nat, config: Config.Config, ts: seq<Template>, now: int,
                            ex: Api.Exchange, later: int, inventoryEx: Api.Exchange)
    requires UniqueKeys(ps) && k < |ps|
    requires ps[k].template.Some? ==> ps[k].template.value < |ts|
    ensures UniqueKeys(ps[k := SyncFromCj(ps[k], config, ts, now, ex, later, inventoryEx).product])
  {
    var qs := ps[k := SyncFromCj(ps[k], config, ts, now, ex, later, inventoryEx).product];
    assert SameKeys(ps, qs);
    SameKeysUnique(ps, qs);
  }

  /** The inventory lookup right after the detail reuses the token the detail
      request obtained when it is still inside its 7000-second window: its
      authentication reply is never consulted. */
  lemma SyncReusesToken(p: Product, config: Config.Config, now: int, ex: Api.Exchange, later: int,
                        auth1: Api.Reply, auth2: Api.Reply, reply: Api.Reply)
    requires Config.GetApiClient(config).Success?
    requires var d := Api.MakeRequest(Config.GetApiClient(config).value, now, Api.ProductDetail(p.productId), ex);
      d.result.Success? && Truthy(d.client.accessToken)
    requires now <= later < now + Api.TokenLifetime
    ensures var d := Api.MakeRequest(Config.GetApiClient(config).value, now, Api.ProductDetail(p.productId), ex);
      Api.MakeRequest(d.client, later, Api.ProductInventory(p.productId, p.variantId), Api.Exchange(auth1, reply))
      == Api.MakeRequest(d.client, later, Api.ProductInventory(p.productId, p.variantId), Api.Exchange(auth2, reply))
  {
  }
}

=== FILE: config.dfy ===
/** The integration settings record (`cjdropship.config`): the markup rule, the
    two field constraints, the credential guard in front of every API client,
    the choice of the default configuration, the connection test, the guard of
    the manual product sync and the webhook address. */
module Config {
  import opened Wrappers
  import opened Values
  import Text
  import Api

  datatype MarkupType = FixedAmount | Percentage | NoMarkupType

  datatype ProductType = Consumable | Service | Storable

  /** `connection_status` together with the `connection_message` written with it. */
  datatype Connection = NotTested | Connected(message: string) | ConnectionError(error: Error)

  datatype Config = Config(
    id: nat,                      // 0 for a record that is not saved yet
    name: string,
    active: bool,
    apiEmail: string,             // "" when unset
    apiPassword: string,          // "" when unset
    autoSyncProducts: bool,
    syncInterval: int,
    autoFulfillOrders: bool,
    defaultProductType: ProductType,
    defaultCategId: Option<nat>,
    markupType: MarkupType,
    priceMarkup: real,
    webhookEnabled: bool,
    connection: Connection)

  /** The field defaults of a new configuration. */
  function DefaultRecord(id: nat): Config {
    Config(id, "CJDropshipping Settings", true, "", "", false, 24, false, Consumable, None,
           Percentage, 30.0, true, NotTested)
  }

  // ---------------------------------------------------------------------------
  // Pricing

  /** `calculate_sale_price`: a percentage markup scales the cost, any other
      markup type adds the markup as an amount. */
  function SalePrice(c: Config, cost: real): (r: real)
    ensures c.markupType == Percentage ==> r - cost == cost * c.priceMarkup / 100.0
    ensures c.markupType != Percentage ==> r - cost == c.priceMarkup
  {
    if c.markupType == Percentage then cost * (1.0 + c.priceMarkup / 100.0)
    else cost + c.priceMarkup
  }

  /** Examples: the default 30 % on 10.00 is 13.00, a fixed 5 on 10.00 is
      15.00. */
  lemma SalePriceExamples(c: Config)
    ensures SalePrice(c.(markupType := Percentage, priceMarkup := 30.0), 10.0) == 13.0
    ensures SalePrice(c.(markupType := FixedAmount, priceMarkup := 5.0), 10.0) == 15.0
  {
  }

  /** With the markup the constraint admits, nothing sells below its cost. */
  lemma SalePriceNotBelowCost(c: Config, cost: real)
    requires Validate(c) == Pass
    requires cost >= 0.0
    ensures SalePrice(c, cost) >= cost
  {
    if c.markupType == Percentage {
      assert cost * (1.0 + c.priceMarkup / 100.0) == cost + cost * (c.priceMarkup / 100.0);
    }
  }

  /** With the markup the constraint admits, a dearer cost never gives a
      cheaper sale price. */
  lemma SalePriceMonotone(c: Config, cost1: real, cost2: real)
    requires Validate(c) == Pass
    requires cost1 <= cost2
    ensures SalePrice(c, cost1) <= SalePrice(c, cost2)
  {
    if c.markupType == Percentage {
      var f := 1.0 + c.priceMarkup / 100.0;
      assert f > 0.0;
      assert cost2 * f - cost1 * f == (cost2 - cost1) * f;
    }
  }

  // ---------------------------------------------------------------------------
  // Field constraints

  /** `_check_sync_interval` and `_check_price_markup`, run when a
      configuration is saved. Odoo runs constraint methods in name order, so
      the markup check reports first when both fail. */
  function Validate(c: Config): (r: Outcome<Error>)
    ensures r == Pass <==> c.syncInterval >= 1 && c.priceMarkup >= 0.0
    ensures c.priceMarkup < 0.0 ==> r == Fail(ValidationError("Price markup cannot be negative"))
    ensures c.priceMarkup >= 0.0 && c.syncInterval < 1 ==>
      r == Fail(ValidationError("Sync interval must be at least 1 hour"))
  {
    if c.priceMarkup < 0.0 then Fail(ValidationError("Price markup cannot be negative"))
    else if c.syncInterval < 1 then Fail(ValidationError("Sync interval must be at least 1 hour"))
    else Pass
  }

  lemma DefaultRecordValid(id: nat)
    ensures Validate(DefaultRecord(id)) == Pass
  {
  }

  // ---------------------------------------------------------------------------
  // API client, default configuration, connection test, product sync

  /** `get_api_client`: a client exists only for a configuration with both
      credentials, and it starts without a token. */
  function GetApiClient(c: Config): (r: Result<Api.Client, Error>)
    ensures r.Success? <==> c.apiEmail != "" && c.apiPassword != ""
    ensures r.Success? ==>
      && r.value.email == c.apiEmail && r.value.password == c.apiPassword
      && r.value.accessToken == Null && r.value.tokenExpiry == 0
    ensures r.Failure? ==> r.error == UserError("Please configure API credentials first")
  {
    if c.apiEmail == "" || c.apiPassword == "" then
      Failure(UserError("Please configure API credentials first"))
    else
      Success(Api.NewClient(c.apiEmail, c.apiPassword))
  }

  /** `get_default_config`: the active configuration with the least id (the
      model has no `_order`, so `search` orders by id), or an error when there
      is none. */
  function GetDefaultConfig(configs: seq<Config>): (r: Result<Config, Error>)
    ensures r.Failure? <==> forall i :: 0 <= i < |configs| ==> !configs[i].active
    ensures r.Failure? ==> r.error == UserError("Please configure CJDropshipping settings first")
    ensures r.Success? ==> r.value in configs && r.value.active
    ensures r.Success? ==> forall i :: 0 <= i < |configs| && configs[i].active ==> r.value.id <= configs[i].id
  {
    if |configs| == 0 then Failure(UserError("Please configure CJDropshipping settings first"))
    else
      var rest := GetDefaultConfig(configs[1..]);
      assert forall i :: 0 < i < |configs| ==> configs[i] == configs[1..][i - 1];
      if configs[0].active && (rest.Failure? || configs[0].id <= rest.value.id) then Success(configs[0])
      else rest
  }

  /** Configuration ids are distinct, as the database keeps them. */
  predicate DistinctIds(configs: seq<Config>) {
    forall i, j :: 0 <= i < |configs| && 0 <= j < |configs| && i != j ==> configs[i].id != configs[j].id
  }

  /** With distinct ids the default is determined by the records alone, not by
      their order in the store: it is THE active configuration whose id no
      other active one undercuts. */
  lemma DefaultIsLeastActive(configs: seq<Config>, c: Config)
    requires DistinctIds(configs)
    requires c in configs && c.active
    requires forall i :: 0 <= i < |configs| && configs[i].active ==> c.id <= configs[i].id
    ensures GetDefaultConfig(configs) == Success(c)
  {
    var r := GetDefaultConfig(configs).value;
    var i :| 0 <= i < |configs| && configs[i] == c;
    var j :| 0 <= j < |configs| && configs[j] == r;
    assert r.id <= c.id && c.id <= r.id;
  }

  /** `browse(id).exists()`: the configuration with that id, active or not. */
  function Browse(configs: seq<Config>, id: int): (r: Option<Config>)
    ensures r.Some? ==> r.value.id == id && exists i :: 0 <= i < |configs| && configs[i] == r.value
    ensures r.None? ==> forall i :: 0 <= i < |configs| ==> configs[i].id != id
  {
    if |configs| == 0 then None
    else if configs[0].id == id then Some(configs[0])
    else
      var rest := Browse(configs[1..], id);
      assert forall i :: 0 <= i < |configs[1..]| ==> configs[1..][i] == configs[i + 1];
      rest
  }

  /** `action_test_connection`: list the categories with a fresh client and
      record whether that worked. The configuration is the only thing written. */
  function TestConnection(c: Config, now: int, ex: Api.Exchange): (r: Config)
    ensures r == c.(connection := r.connection)
    ensures r.connection.Connected? <==>
      GetApiClient(c).Success?
      && Api.MakeRequest(GetApiClient(c).value, now, Api.Categories(), ex).result.Success?
    ensures r.connection.Connected? ==> r.connection.message == "Connection successful!"
    ensures !r.connection.Connected? ==> r.connection.ConnectionError?
  {
    match GetApiClient(c)
    case Failure(e) => c.(connection := ConnectionError(e))
    case Success(client) =>
      match Api.MakeRequest(client, now, Api.Categories(), ex).result
      case Failure(e) => c.(connection := ConnectionError(e))
      case Success(_) => c.(connection := Connected("Connection successful!"))
  }

  /** `action_sync_products`: opens the import wizard for this configuration,
      but only once the connection has been tested successfully. */
  function SyncProducts(c: Config): (r: Result<nat, Error>)
    ensures r.Success? <==> c.connection.Connected?
    ensures r.Success? ==> r.value == c.id
    ensures r.Failure? ==> r.error == UserError("Please test the connection first")
  {
    if c.connection.Connected? then Success(c.id)
    else Failure(UserError("Please test the connection first"))
  }

  /** An untested configuration cannot start a product sync until a successful
      connection test. */
  lemma SyncNeedsSuccessfulTest(c: Config, now: int, ex: Api.Exchange)
    requires c.connection == NotTested
    ensures SyncProducts(c).Failure?
    ensures SyncProducts(TestConnection(c, now, ex)).Success? <==>
      GetApiClient(c).Success?
      && Api.MakeRequest(GetApiClient(c).value, now, Api.Categories(), ex).result.Success?
  {
  }

  // ---------------------------------------------------------------------------
  // Webhook address

  const WebhookPath: string := "/cjdropship/webhook/"

  /** `_compute_webhook_url`: the base address, the webhook path, then the
      record id, or `[ID]` for a record that is not saved yet. */
  function WebhookUrl(baseUrl: string, c: Config): (r: string)
    ensures |baseUrl + WebhookPath| <= |r| && r[..|baseUrl + WebhookPath|] == baseUrl + WebhookPath
    ensures c.id != 0 ==> Text.ParseInt(r[|baseUrl + WebhookPath|..]) == Some(c.id)
    ensures c.id == 0 ==> r[|baseUrl + WebhookPath|..] == "[ID]"
  {
    var prefix := baseUrl + WebhookPath;
    var tail := if c.id != 0 then Text.IntToString(c.id) else "[ID]";
    Text.IntToStringRoundTrip(c.id);
    assert (prefix + tail)[..|prefix|] == prefix && (prefix + tail)[|prefix|..] == tail;
    prefix + tail
  }

  /** The published address of a saved configuration ends in the digits of its
      id, which the endpoint's `<int:config_id>` segment reads back; an unsaved
      record's address ends in `[ID]`, which no id matches. */
  lemma WebhookUrlNamesConfig(baseUrl: string, c: Config)
    ensures var url := WebhookUrl(baseUrl, c);
      && url[..|baseUrl| + |WebhookPath|] == baseUrl + WebhookPath
      && (c.id != 0 ==> Text.ParseNat(url[|baseUrl| + |WebhookPath|..]) == Some(c.id))
      && (c.id == 0 ==> Text.ParseNat(url[|baseUrl| + |WebhookPath|..]) == None)
  {
    var url := WebhookUrl(baseUrl, c);
    var tail := if c.id != 0 then Text.IntToString(c.id) else "[ID]";
    assert url == (baseUrl + WebhookPath) + tail;
    assert url[|baseUrl| + |WebhookPath|..] == tail;
    if c.id != 0 {
      Text.NatToStringRoundTrip(c.id);
    } else {
      assert !Text.IsDigit(tail[0]);
    }
  }

  /** Two saved configurations get the same address only if they are the same
      record. */
  lemma WebhookUrlInjective(baseUrl: string, c1: Config, c2: Config)
    requires c1.id != 0 && c2.id != 0
    requires WebhookUrl(baseUrl, c1) == WebhookUrl(baseUrl, c2)
    ensures c1.id == c2.id
  {
    WebhookUrlNamesConfig(baseUrl, c1);
    WebhookUrlNamesConfig(baseUrl, c2);
  }
}

=== FILE: host.dfy ===
/** The parts of the host's sale order that the integration reads and writes:
    order lines with the supplier flag and product link, the customer and
    shipping contacts, and the link to the supplier order. */
module Host {
  import opened Wrappers
  import opened Values

  /** The supplier product a catalog product is linked to, by the identifiers
      the supplier knows it under. */
  datatype ProductKey = ProductKey(productId: Value, variantId: Value)

  /** A sale order line. `isCj` is the product's `is_cjdropship` flag (false
      for a line without a product); `link` the template's supplier product. */
  datatype SaleLine = SaleLine(isCj: bool, link: Option<ProductKey>, quantity: real)

  /** A contact; text fields hold `Bool(false)` when empty, as Odoo stores them. */
  datatype Partner = Partner(
    countryCode: Option<Value>,   // country_id.code, None when no country
    stateName: Option<Value>,     // state_id.name, None when no state
    city: Value,
    zip: Value,
    street: Value,
    street2: Value,
    name: Value,
    phone: Value,
    mobile: Value,
    email: Value)

  /** Messages the integration posts on a sale order. */
  datatype Note = SubmitFailed(error: Error)

  datatype SaleOrder = SaleOrder(
    name: Value,
    lines: seq<SaleLine>,
    partner: Partner,
    shippingPartner: Option<Partner>,
    note: Value,
    cjOrder: Option<nat>,         // cjdropship_order_id, as an index of the order store
    chatter: seq<Note>)

  /** Python's `any(line.product_id.is_cjdropship for line in lines)`. */
  predicate AnyCjLine(lines: seq<SaleLine>) {
    |lines| > 0 && (lines[0].isCj || AnyCjLine(lines[1..]))
  }

  /** `_compute_is_cjdropship_order`. */
  function IsCjOrder(so: SaleOrder): (r: bool)
    ensures r <==> exists i :: 0 <= i < |so.lines| && so.lines[i].isCj
  {
    IsCjOrderIff(so.lines);
    AnyCjLine(so.lines)
  }

  /** A sale order is a supplier order exactly when one of its lines carries a
      supplier product. */
  lemma {:induction false} IsCjOrderIff(lines: seq<SaleLine>)
    ensures AnyCjLine(lines) <==> exists i :: 0 <= i < |lines| && lines[i].isCj
  {
    if |lines| > 0 {
      IsCjOrderIff(lines[1..]);
      if AnyCjLine(lines[1..]) {
        var i :| 0 <= i < |lines[1..]| && lines[1..][i].isCj;
        assert lines[i + 1].isCj;
      }
      if exists i :: 0 <= i < |lines| && lines[i].isCj {
        var i :| 0 <= i < |lines| && lines[i].isCj;
        if i > 0 { assert lines[1..][i - 1].isCj; }
      }
    }
  }
}

=== FILE: import_wizard.dfy ===
/** The product import wizard (`cjdropship.product.import.wizard`): one page
    of the supplier's product list folded into the catalog, entry by entry —
    skip an entry without `pid`, upsert the record of that product without a
    variant, reprice it, optionally publish it, count it. */
module ImportWizard {
  import opened Wrappers
  import opened Values
  import Api
  import Config
  import Catalog

  datatype WizardState = WizardDraft | Importing | Done

  datatype Wizard = Wizard(
    config: Config.Config,
    category: Option<nat>,        // category_id, used as the supplier category filter
    pageNumber: int,
    pageSize: int,
    createOdooProducts: bool,
    state: WizardState,
    importedCount: int,
    errorMessage: Option<Error>)

  /** A wizard opened on `config` with the field defaults. */
  function NewWizard(config: Config.Config): Wizard {
    Wizard(config, None, 1, 20, false, WizardDraft, 0, None)
  }

  /** The `category_id` argument of the list request: the id, or `None`. */
  function CategoryValue(category: Option<nat>): Value {
    match category
    case Some(id) => Int(id)
    case None => Null
  }

  // ---------------------------------------------------------------------------
  // One entry of the list

  /** A record this import has written: an active product record without a
      variant, priced by the configuration's markup, synced now. */
  predicate WrittenBy(config: Config.Config, now: int, p: Catalog.Product) {
    && Truthy(p.productId) && StoredAsNull(p.variantId) && p.active
    && p.configId == config.id && p.syncDate == Some(now)
    && p.sellingPrice == Config.SalePrice(config, p.cjPrice)
  }

  /** The fields an entry writes onto a record (`vals`): the product id, the
      five text fields ('' when the entry lacks them), the prices, the weight,
      the configuration and the sync time. The variant, the stock, the
      template link and `active` are kept. */
  function Fill(p: Catalog.Product, entry: Value, pid: Value, price: real, weight: real,
                config: Config.Config, now: int): (r: Catalog.Product)
    requires entry.Obj? && Truthy(pid)
    ensures WrittenBy(config, now, r) <==> StoredAsNull(p.variantId) && p.active
    ensures r.productId == pid && r.cjPrice == price && r.weight == weight
    ensures r.variantId == p.variantId && r.active == p.active && r.template == p.template
    ensures r.stockQty == p.stockQty
    ensures && r.name == Get(entry, "productNameEn", Str("")).value
            && r.sku == Get(entry, "productSku", Str("")).value
            && r.description == Get(entry, "description", Str("")).value
            && r.categoryName == Get(entry, "categoryName", Str("")).value
            && r.imageUrl == Get(entry, "productImage", Str("")).value
  {
    p.(productId := pid,
       name := Get(entry, "productNameEn", Str("")).value,
       sku := Get(entry, "productSku", Str("")).value,
       description := Get(entry, "description", Str("")).value,
       cjPrice := price,
       categoryName := Get(entry, "categoryName", Str("")).value,
       imageUrl := Get(entry, "productImage", Str("")).value,
       weight := weight,
       configId := config.id,
       syncDate := Some(now),
       sellingPrice := Config.SalePrice(config, price))
  }

  /** A new record with the model defaults: no variant, no stock, no template,
      active. */
  function Blank(config: Config.Config): Catalog.Product {
    Catalog.Product(Null, Null, Null, Null, Null, Null, 0.0, 0.0, 0, Null, 0.0, None, config.id, true, None)
  }

  datatype EntryOutcome =
    | Skipped                                     // no `pid`: `continue`
    | Imported(products: seq<Catalog.Product>, templates: seq<Catalog.Template>)
    | EntryFailed(error: Error)                   // caught and logged; the loop goes on
    | Abort(error: Error)                         // raised by the handler itself: the import fails

  /** The body of the loop for one entry. A non-object entry makes
      `product_data.get('pid')` raise, and the `except` handler that logs the
      failure calls the same `.get` again, so that entry ends the whole import.
      A conversion failure of `sellPrice` or `weight` happens before anything is
      written. Otherwise the first active record of that product without a
      variant is updated, or a new one is created; with `createProducts` it is
      then published if it has no template yet. */
  function ImportEntry(ps: seq<Catalog.Product>, ts: seq<Catalog.Template>, entry: Value,
                       config: Config.Config, createProducts: bool, now: int): (r: EntryOutcome)
    requires Catalog.LinksValid(ps, ts)
    ensures r.Abort? <==> !entry.Obj?
    ensures r.Skipped? <==> entry.Obj? && !Truthy(Get(entry, "pid", Null).value)
    ensures r.EntryFailed? <==>
      && entry.Obj? && Truthy(Get(entry, "pid", Null).value)
      && (ToFloat(Get(entry, "sellPrice", Int(0)).value).Failure? || ToFloat(Get(entry, "weight", Int(0)).value).Failure?)
    ensures r.Imported? ==>
      var pid := entry.fields["pid"];
      var k := Catalog.FindWithoutVariant(ps, pid).GetOr(|ps|);
      && Catalog.LinksValid(r.products, r.templates)
      && |r.templates| >= |ts| && r.templates[..|ts|] == ts
      && |r.products| == (if k < |ps| then |ps| else |ps| + 1)
      && (forall i :: 0 <= i < |ps| && i != k ==> r.products[i] == ps[i])
      && WrittenBy(config, now, r.products[k])
      && r.products[k].cjPrice == ToFloat(Get(entry, "sellPrice", Int(0)).value).value
      && r.products[k].weight == ToFloat(Get(entry, "weight", Int(0)).value).value
      && r.products[k].name == Get(entry, "productNameEn", Str("")).value
      && r.products[k].sku == Get(entry, "productSku", Str("")).value
      && r.products[k].description == Get(entry, "description", Str("")).value
      && r.products[k].categoryName == Get(entry, "categoryName", Str("")).value
      && r.products[k].imageUrl == Get(entry, "productImage", Str("")).value
      && (k < |ps| && (!createProducts || ps[k].template.Some?) ==> r.products[k].template == ps[k].template)
      && (k == |ps| && !createProducts ==> r.products[k].template.None?)
      && r.products[k].productId == pid
      && (k < |ps| ==> r.products[k].stockQty == ps[k].stockQty)
      && (createProducts ==> r.products[k].template.Some?)
      && (!createProducts ==> r.templates == ts)
  {
    match Get(entry, "pid", Null)
    case Failure(e) => Abort(e)
    case Success(pid) =>
      if !Truthy(pid) then Skipped
      else
        match ToFloat(Get(entry, "sellPrice", Int(0)).value)
        case Failure(e) => EntryFailed(e)
        case Success(price) =>
          match ToFloat(Get(entry, "weight", Int(0)).value)
          case Failure(e) => EntryFailed(e)
          case Success(weight) =>
            var found := Catalog.FindWithoutVariant(ps, pid);
            var k := found.GetOr(|ps|);
            var ps1 := if found.Some? then ps[k := Fill(ps[k], entry, pid, price, weight, config, now)]
                       else ps + [Fill(Blank(config), entry, pid, price, weight, config, now)];
            assert Catalog.LinksValid(ps1, ts);
            if createProducts && ps1[k].template.None? then
              var (ps2, ts2) := Catalog.CreateOdooProduct(ps1, k, config, ts);
              Imported(ps2, ts2)
            else
              Imported(ps1, ts)
  }

  /** An imported entry keeps the catalog free of duplicate keys: it either
      rewrites the record it found without touching its key, or adds an active
      record for a product that has no active record without a variant. */
  lemma ImportEntryKeepsKeysUnique(ps: seq<Catalog.Product>, ts: seq<Catalog.Template>, entry: Value,
                                   config: Config.Config, createProducts: bool, now: int)
    requires Catalog.LinksValid(ps, ts) && Catalog.UniqueKeys(ps)
    requires ImportEntry(ps, ts, entry, config, createProducts, now).Imported?
    ensures Catalog.UniqueKeys(ImportEntry(ps, ts, entry, config, createProducts, now).products)
  {
    var r := ImportEntry(ps, ts, entry, config, createProducts, now);
    var pid := entry.fields["pid"];
    var found := Catalog.FindWithoutVariant(ps, pid);
    var qs := r.products;
    if found.Some? {
      assert Catalog.SameKeys(ps, qs) by {
        forall i | 0 <= i < |ps|
          ensures qs[i].productId == ps[i].productId && qs[i].variantId == ps[i].variantId
                  && qs[i].active == ps[i].active
        {
          if i == found.value {
            var ps1 := ps[i := Fill(ps[i], entry, pid, ToFloat(Get(entry, "sellPrice", Int(0)).value).value,
                                    ToFloat(Get(entry, "weight", Int(0)).value).value, config, now)];
            assert qs[i] == ps1[i] || qs[i] == ps1[i].(template := qs[i].template);
          }
        }
      }
      Catalog.SameKeysUnique(ps, qs);
    } else {
      var n := |ps|;
      forall i, j | 0 <= i < |qs| && 0 <= j < |qs| && i != j
                    && qs[i].productId == qs[j].productId && Catalog.SameVariant(qs[i].variantId, qs[j].variantId)
        ensures StoredAsNull(qs[i].variantId) && !(qs[i].active && qs[j].active)
      {
        if i == n {
          assert qs[j] == ps[j] && ps[j].productId == pid && StoredAsNull(ps[j].variantId);
        } else if j == n {
          assert qs[i] == ps[i] && ps[i].productId == pid && StoredAsNull(ps[i].variantId);
        } else {
          assert qs[i] == ps[i] && qs[j] == ps[j];
        }
      }
    }
  }

  /** Importing the same entry again at the same moment finds the record the
      first import wrote and leaves the catalog as it is: a re-import never
      creates a duplicate. */
  lemma ReimportChangesNothing(ps: seq<Catalog.Product>, ts: seq<Catalog.Template>, entry: Value,
                               config: Config.Config, createProducts: bool, now: int)
    requires Catalog.LinksValid(ps, ts)
    requires ImportEntry(ps, ts, entry, config, createProducts, now).Imported?
    ensures var r := ImportEntry(ps, ts, entry, config, createProducts, now);
      ImportEntry(r.products, r.templates, entry, config, createProducts, now) == r
  {
    var r := ImportEntry(ps, ts, entry, config, createProducts, now);
    var pid := entry.fields["pid"];
    var k := Catalog.FindWithoutVariant(ps, pid).GetOr(|ps|);
    var qs := r.products;
    assert Catalog.FindWithoutVariant(qs, pid) == Some(k) by {
      FirstWithoutVariant(qs, pid, k);
    }
    var price := ToFloat(Get(entry, "sellPrice", Int(0)).value).value;
    var weight := ToFloat(Get(entry, "weight", Int(0)).value).value;
    assert Fill(qs[k], entry, pid, price, weight, config, now) == qs[k];
    assert qs[k := qs[k]] == qs;
  }

  /** The search finds record `k` when it matches and no record before it does. */
  lemma FirstWithoutVariant(ps: seq<Catalog.Product>, pid: Value, k: nat)
    requires k < |ps| && ps[k].active && ps[k].productId == pid && StoredAsNull(ps[k].variantId)
    requires forall j :: 0 <= j < k ==> !(ps[j].active && ps[j].productId == pid && StoredAsNull(ps[j].variantId))
    ensures Catalog.FindWithoutVariant(ps, pid) == Some(k)
  {
    var r := Catalog.FindWithoutVariant(ps, pid);
    assert r.Some? && r.value >= k;
    assert ps[k].active && ps[k].productId == pid && StoredAsNull(ps[k].variantId);
  }

  // ---------------------------------------------------------------------------
  // The loop

  /** What the loop has done so far: the catalog, the count, and the error
      that ended it early, if any. */
  datatype Batch = Batch(products: seq<Catalog.Product>, templates: seq<Catalog.Template>,
                         count: nat, abort: Option<Error>)

  /** The `for` loop over the entries, as a fold. */
  function ImportFrom(b: Batch, entries: seq<Value>, config: Config.Config, createProducts: bool, now: int)
    : (r: Batch)
    requires Catalog.LinksValid(b.products, b.templates)
    ensures Catalog.LinksValid(r.products, r.templates)
    decreases |entries|
  {
    if |entries| == 0 || b.abort.Some? then b
    else
      var next := match ImportEntry(b.products, b.templates, entries[0], config, createProducts, now)
        case Skipped => b
        case EntryFailed(_) => b
        case Abort(e) => b.(abort := Some(e))
        case Imported(ps, ts) => Batch(ps, ts, b.count + 1, None);
      ImportFrom(next, entries[1..], config, createProducts, now)
  }

  /** An entry whose price or weight does not convert is logged and passed
      over: the fold goes on with the next entry as if it were not there. */
  lemma EntryFailureSkipsEntry(b: Batch, e: Value, rest: seq<Value>, config: Config.Config,
                               createProducts: bool, now: int)
    requires Catalog.LinksValid(b.products, b.templates) && b.abort.None?
    requires ImportEntry(b.products, b.templates, e, config, createProducts, now).EntryFailed?
    ensures ImportFrom(b, [e] + rest, config, createProducts, now) == ImportFrom(b, rest, config, createProducts, now)
  {
    assert ([e] + rest)[0] == e && ([e] + rest)[1..] == rest;
  }

  /** The catalog after `b2` extends the one after `b1`: the templates as a
      prefix, every old record either untouched or rewritten by this import,
      every new record written by it. */
  predicate Extends(b1: Batch, b2: Batch, config: Config.Config, now: int) {
    && |b1.products| <= |b2.products| && |b1.templates| <= |b2.templates|
    && b2.templates[..|b1.templates|] == b1.templates
    && (forall i :: 0 <= i < |b1.products| ==> b2.products[i] == b1.products[i] || WrittenBy(config, now, b2.products[i]))
    && (forall i :: |b1.products| <= i < |b2.products| ==> WrittenBy(config, now, b2.products[i]))
  }

  /** The fold keeps the catalog's keys unique, counts at most one per entry,
      and only writes records it prices with the configuration's markup. */
  lemma {:induction false} ImportFromInvariant(b: Batch, entries: seq<Value>, config: Config.Config,
                                               createProducts: bool, now: int)
    requires Catalog.LinksValid(b.products, b.templates) && Catalog.UniqueKeys(b.products)
    ensures var r := ImportFrom(b, entries, config, createProducts, now);
      && Catalog.UniqueKeys(r.products)
      && b.count <= r.count <= b.count + |entries|
      && Extends(b, r, config, now)
      && (b.abort.Some? ==> r == b)
    decreases |entries|
  {
    if |entries| == 0 || b.abort.Some? {
      assert b.templates[..|b.templates|] == b.templates;
    } else {
      var out := ImportEntry(b.products, b.templates, entries[0], config, createProducts, now);
      var next := match out
        case Skipped => b
        case EntryFailed(_) => b
        case Abort(e) => b.(abort := Some(e))
        case Imported(ps, ts) => Batch(ps, ts, b.count + 1, None);
      if out.Imported? {
        ImportEntryKeepsKeysUnique(b.products, b.templates, entries[0], config, createProducts, now);
      }
      assert Extends(b, next, config, now) by {
        assert b.templates[..|b.templates|] == b.templates;
      }
      ImportFromInvariant(next, entries[1..], config, createProducts, now);
      var r := ImportFrom(next, entries[1..], config, createProducts, now);
      assert r == ImportFrom(b, entries, config, createProducts, now);
      assert r.templates[..|b.templates|] == b.templates by {
        assert r.templates[..|b.templates|] == r.templates[..|next.templates|][..|b.templates|];
      }
    }
  }

  /** A page whose entries all lack a `pid` imports nothing and writes nothing. */
  lemma {:induction false} NoPidImportsNothing(b: Batch, entries: seq<Value>, config: Config.Config,
                                               createProducts: bool, now: int)
    requires Catalog.LinksValid(b.products, b.templates)
    requires forall i :: 0 <= i < |entries| ==> entries[i].Obj? && !Truthy(Get(entries[i], "pid", Null).value)
    ensures ImportFrom(b, entries, config, createProducts, now) == b
    decreases |entries|
  {
    if |entries| > 0 && b.abort.None? {
      NoPidImportsNothing(b, entries[1..], config, createProducts, now);
    }
  }

  // ---------------------------------------------------------------------------
  // The action

  /** The entries `for product_data in products_data` visits. A truthy string
      or object yields strings (characters or keys), and the first one's
      `.get` raises in the loop body and again in its handler, so the import
      fails before anything is written; any other non-list is not iterable. */
  function EntriesOf(list: Value): (r: Result<seq<Value>, Error>)
    ensures r.Success? <==> list.Arr?
    ensures r.Success? ==> r.value == list.items
  {
    match list
    case Arr(items) => Success(items)
    case Str(_) => Failure(NoAttribute("str", "get"))
    case Obj(_) => Failure(NoAttribute("str", "get"))
    case _ => Failure(NotIterable(TypeName(list)))
  }

  /** The outcome of the action: the wizard, the catalog, and what it raised. */
  datatype Run = Run(wizard: Wizard, products: seq<Catalog.Product>, templates: seq<Catalog.Template>,
                     outcome: Outcome<Error>)

  /** The entries of a reply whose `list` is present and truthy. */
  function ListOf(result: Value): (r: Result<seq<Value>, Error>)
    ensures r.Success? ==> result.Obj? && "list" in result.fields && Truthy(result.fields["list"])
                           && result.fields["list"] == Arr(r.value) && |r.value| > 0
    ensures result.Obj? && "list" in result.fields && result.fields["list"].Arr? && |result.fields["list"].items| > 0
            ==> r == Success(result.fields["list"].items)
    ensures !Truthy(result) ==> r == Failure(UserError("No products found"))
  {
    if !Truthy(result) then Failure(UserError("No products found"))
    else
      var list :- Get(result, "list", Null);
      if !Truthy(list) then Failure(UserError("No products found"))
      else EntriesOf(list)
  }

  /** `action_import_products`: fetch one page of the product list and fold it
      into the catalog. On success the wizard is `done` with the count of
      entries imported; any failure outside the per-entry handler puts it back
      in `draft` with the error, which is raised again, wrapped. */
  function ImportProducts(w: Wizard, ps: seq<Catalog.Product>, ts: seq<Catalog.Template>, now: int, ex: Api.Exchange)
    : (r: Run)
    requires Catalog.LinksValid(ps, ts)
    ensures Catalog.LinksValid(r.products, r.templates)
    ensures r.wizard == w.(state := r.wizard.state, importedCount := r.wizard.importedCount,
                           errorMessage := r.wizard.errorMessage)
    ensures r.outcome.Pass? ==> r.wizard.state == Done && r.wizard.errorMessage == w.errorMessage
    ensures r.outcome.Fail? ==>
      && r.wizard.state == WizardDraft && r.wizard.importedCount == w.importedCount
      && r.wizard.errorMessage.Some?
      && r.outcome.error == Wrapped("Import failed: %s", r.wizard.errorMessage.value)
    ensures Config.GetApiClient(w.config).Failure? ==>
      r.outcome == Fail(Wrapped("Import failed: %s", UserError("Please configure API credentials first")))
    ensures r.outcome.Pass? <==>
      && Config.GetApiClient(w.config).Success?
      && var result := Api.MakeRequest(Config.GetApiClient(w.config).value, now,
                                       Api.ProductList(w.pageNumber, w.pageSize, CategoryValue(w.category)), ex).result;
         && result.Success? && ListOf(result.value).Success?
         && ImportFrom(Batch(ps, ts, 0, None), ListOf(result.value).value, w.config, w.createOdooProducts, now).abort.None?
    ensures r.outcome.Pass? ==>
      var result := Api.MakeRequest(Config.GetApiClient(w.config).value, now,
                                    Api.ProductList(w.pageNumber, w.pageSize, CategoryValue(w.category)), ex).result;
      var b := ImportFrom(Batch(ps, ts, 0, None), ListOf(result.value).value, w.config, w.createOdooProducts, now);
      && r.wizard.importedCount == b.count
      && r.products == b.products && r.templates == b.templates
  {
    var fail := (e: Error) => Run(w.(state := WizardDraft, errorMessage := Some(e)), ps, ts,
                                  Fail(Wrapped("Import failed: %s", e)));
    match Config.GetApiClient(w.config)
    case Failure(e) => fail(e)
    case Success(client) =>
      var request := Api.ProductList(w.pageNumber, w.pageSize, CategoryValue(w.category));
      match Api.MakeRequest(client, now, request, ex).result
      case Failure(e) => fail(e)
      case Success(result) =>
        match ListOf(result)
        case Failure(e) => fail(e)
        case Success(entries) =>
          var b := ImportFrom(Batch(ps, ts, 0, None), entries, w.config, w.createOdooProducts, now);
          match b.abort
          case Some(e) =>
            Run(w.(state := WizardDraft, errorMessage := Some(e)), b.products, b.templates,
                Fail(Wrapped("Import failed: %s", e)))
          case None => Run(w.(state := Done, importedCount := b.count), b.products, b.templates, Pass)
  }

  /** The import keeps the catalog's keys unique, counts at most the number of
      entries on the page, keeps the existing templates, and every record it
      leaves different was written by it: active, without a variant, priced by
      the markup, synced now. */
  lemma ImportProductsInvariant(w: Wizard, ps: seq<Catalog.Product>, ts: seq<Catalog.Template>, now: int,
                                ex: Api.Exchange)
    requires Catalog.LinksValid(ps, ts) && Catalog.UniqueKeys(ps)
    ensures var r := ImportProducts(w, ps, ts, now, ex);
      && Catalog.UniqueKeys(r.products)
      && |r.products| >= |ps| && |r.templates| >= |ts| && r.templates[..|ts|] == ts
      && (forall i :: 0 <= i < |ps| ==> r.products[i] == ps[i] || WrittenBy(w.config, now, r.products[i]))
      && (forall i :: |ps| <= i < |r.products| ==> WrittenBy(w.config, now, r.products[i]))
      && (r.outcome.Pass? ==>
            var result := Api.MakeRequest(Config.GetApiClient(w.config).value, now,
                                          Api.ProductList(w.pageNumber, w.pageSize, CategoryValue(w.category)), ex).result;
            r.wizard.importedCount <= |ListOf(result.value).value|)
  {
    var r := ImportProducts(w, ps, ts, now, ex);
    assert ts[..|ts|] == ts;
    if Config.GetApiClient(w.config).Success? {
      var request := Api.ProductList(w.pageNumber, w.pageSize, CategoryValue(w.category));
      var result := Api.MakeRequest(Config.GetApiClient(w.config).value, now, request, ex).result;
      if result.Success? && ListOf(result.value).Success? {
        ImportFromInvariant(Batch(ps, ts, 0, None), ListOf(result.value).value, w.config, w.createOdooProducts, now);
      }
    }
  }

  /** An empty or missing product list fails the import with "No products
      found" and writes nothing to the catalog. */
  lemma EmptyListFails(w: Wizard, ps: seq<Catalog.Product>, ts: seq<Catalog.Template>, now: int, ex: Api.Exchange)
    requires Catalog.LinksValid(ps, ts)
    requires Config.GetApiClient(w.config).Success?
    requires var result := Api.MakeRequest(Config.GetApiClient(w.config).value, now,
                                           Api.ProductList(w.pageNumber, w.pageSize, CategoryValue(w.category)), ex).result;
      result.Success? && (!Truthy(result.value) || (result.value.Obj? && !Truthy(Get(result.value, "list", Null).value)))
    ensures var r := ImportProducts(w, ps, ts, now, ex);
      && r.outcome == Fail(Wrapped("Import failed: %s", UserError("No products found")))
      && r.wizard.state == WizardDraft && r.wizard.errorMessage == Some(UserError("No products found"))
      && r.products == ps && r.templates == ts
  {
  }
}

=== FILE: orders.dfy ===
/** The supplier order record (`cjdropship.order`) and its fulfilment state
    machine: submission with its payload, the status refresh and the logistics
    query, the fixed remote-status table applied by `_update_from_cj_data`, and
    the uniqueness of the supplier order id across the store. */
module Orders {
  import opened Wrappers
  import opened Values
  import Text
  import Api
  import Config
  import Host

  datatype OrderState = Draft | Submitted | Processing | Shipped | Delivered | Cancelled | ErrorState

  datatype Order = Order(
    saleOrder: Option<nat>,       // sale_order_id (index of the sale order)
    configId: nat,
    cjOrderId: Value,             // Null until the supplier has accepted the order
    cjOrderNum: Value,
    state: OrderState,
    trackingNumber: Value,
    shippingMethod: Value,
    logisticsInfo: Value,
    lastLogisticsUpdate: Option<int>,
    errorMessage: Option<Error>,
    requestData: Option<Value>,
    responseData: Option<Value>)

  /** A new order for a sale order: every field at its default, state `draft`. */
  function NewOrder(saleOrder: nat, configId: nat): Order {
    Order(Some(saleOrder), configId, Null, Null, Draft, Null, Null, Null, None, None, None, None)
  }

  // ---------------------------------------------------------------------------
  // The payload of a submission (`_prepare_cj_order_data`)

  datatype Item = Item(productId: Value, variantId: Value, quantity: int)

  datatype Address = Address(
    country: Value, state: Value, city: Value, zipCode: Value, address: Value,
    address2: Value, contactName: Value, phone: Value, email: Value)

  datatype OrderData = OrderData(orderNumber: Value, products: seq<Item>, shippingAddress: Address, remark: Value)

  /** A line is sent to the supplier when its product is a supplier product and
      its template is linked to a catalog record. */
  predicate Eligible(l: Host.SaleLine) {
    l.isCj && l.link.Some?
  }

  /** The payload entry of an eligible line: the product id, the variant id or
      '', and the quantity truncated to an integer. */
  function ItemOf(l: Host.SaleLine): Item
    requires Eligible(l)
  {
    Item(l.link.value.productId, Or(l.link.value.variantId, Str("")), Trunc(l.quantity))
  }

  function CountEligible(lines: seq<Host.SaleLine>): nat {
    if |lines| == 0 then 0
    else CountEligible(lines[..|lines| - 1]) + (if Eligible(lines[|lines| - 1]) then 1 else 0)
  }

  /** The payload's product list: one entry per eligible line, in line order.
      The entry of eligible line `i` sits after the entries of the eligible
      lines before it. */
  function Items(lines: seq<Host.SaleLine>): (r: seq<Item>)
    ensures |r| == CountEligible(lines)
    ensures forall i :: 0 <= i < |lines| && Eligible(lines[i]) ==>
      CountEligible(lines[..i]) < |r| && r[CountEligible(lines[..i])] == ItemOf(lines[i])
  {
    if |lines| == 0 then []
    else
      var init, last := lines[..|lines| - 1], lines[|lines| - 1];
      var prefix := Items(init);
      assert lines[..|lines| - 1] == init;
      forall i | 0 <= i < |init|
        ensures lines[..i] == init[..i]
      {
      }
      prefix + (if Eligible(last) then [ItemOf(last)] else [])
  }

  /** Every entry of the product list comes from an eligible line. */
  lemma {:induction false} ItemsComeFromEligibleLines(lines: seq<Host.SaleLine>, k: nat)
    requires k < |Items(lines)|
    ensures exists i :: 0 <= i < |lines| && Eligible(lines[i]) && Items(lines)[k] == ItemOf(lines[i])
  {
    var init := lines[..|lines| - 1];
    var last := lines[|lines| - 1];
    assert Items(lines) == Items(init) + (if Eligible(last) then [ItemOf(last)] else []);
    if k < |Items(init)| {
      ItemsComeFromEligibleLines(init, k);
      var i :| 0 <= i < |init| && Eligible(init[i]) && Items(init)[k] == ItemOf(init[i]);
      assert lines[i] == init[i];
    } else {
      assert Items(lines)[k] == ItemOf(last);
    }
  }

  /** Python's `value or ''`. */
  function OrEmpty(v: Value): Value {
    Or(v, Str(""))
  }

  function ShippingAddress(p: Host.Partner): Address {
    Address(
      if p.countryCode.Some? then p.countryCode.value else Str(""),
      if p.stateName.Some? then p.stateName.value else Str(""),
      OrEmpty(p.city), OrEmpty(p.zip), OrEmpty(p.street), OrEmpty(p.street2),
      OrEmpty(p.name), Or(p.phone, OrEmpty(p.mobile)), OrEmpty(p.email))
  }

  /** Text as Odoo stores it: a string, or `False` when empty. */
  predicate IsOdooText(v: Value) {
    v.Str? || v == Bool(false)
  }

  /** For contacts whose fields are Odoo text, every address field of the
      payload is a string: the contact's value, the mobile number standing in
      for a missing phone, or ''. */
  lemma ShippingAddressIsText(p: Host.Partner)
    requires IsOdooText(p.city) && IsOdooText(p.zip) && IsOdooText(p.street)
    requires IsOdooText(p.street2) && IsOdooText(p.name) && IsOdooText(p.phone)
    requires IsOdooText(p.mobile) && IsOdooText(p.email)
    requires p.countryCode.Some? ==> p.countryCode.value.Str?
    requires p.stateName.Some? ==> p.stateName.value.Str?
    ensures var a := ShippingAddress(p);
      && a.country.Str? && a.state.Str? && a.city.Str? && a.zipCode.Str? && a.address.Str?
      && a.address2.Str? && a.contactName.Str? && a.phone.Str? && a.email.Str?
    ensures Truthy(p.phone) ==> ShippingAddress(p).phone == p.phone
    ensures !Truthy(p.phone) && Truthy(p.mobile) ==> ShippingAddress(p).phone == p.mobile
  {
  }

  /** `_prepare_cj_order_data`: fails when no line is eligible; otherwise the
      payload lists exactly the eligible lines and ships to the shipping
      contact, or the customer when there is none. */
  function PrepareOrderData(so: Host.SaleOrder): (r: Result<OrderData, Error>)
    ensures r.Failure? <==> CountEligible(so.lines) == 0
    ensures r.Failure? ==> r.error == UserError("No CJDropshipping products found in this order")
    ensures r.Success? ==> r.value.products == Items(so.lines) && |r.value.products| > 0
    ensures r.Success? ==> r.value.orderNumber == so.name && r.value.remark == OrEmpty(so.note)
    ensures r.Success? ==>
      r.value.shippingAddress == ShippingAddress(if so.shippingPartner.Some? then so.shippingPartner.value else so.partner)
  {
    var partner := if so.shippingPartner.Some? then so.shippingPartner.value else so.partner;
    var products := Items(so.lines);
    if products == [] then Failure(UserError("No CJDropshipping products found in this order"))
    else Success(OrderData(so.name, products, ShippingAddress(partner), OrEmpty(so.note)))
  }

  function ItemValue(it: Item): Value {
    Obj(map["productId" := it.productId, "variantId" := it.variantId, "quantity" := Int(it.quantity)])
  }

  function AddressValue(a: Address): Value {
    Obj(map["country" := a.country, "state" := a.state, "city" := a.city, "zipCode" := a.zipCode,
            "address" := a.address, "address2" := a.address2, "contactName" := a.contactName,
            "phone" := a.phone, "email" := a.email])
  }

  /** The JSON body sent to the order-creation endpoint. */
  function OrderDataValue(d: OrderData): Value {
    Obj(map["orderNumber" := d.orderNumber,
            "products" := Arr(seq(|d.products|, i requires 0 <= i < |d.products| => ItemValue(d.products[i]))),
            "shippingAddress" := AddressValue(d.shippingAddress),
            "remark" := d.remark])
  }

  // ---------------------------------------------------------------------------
  // Submission (`action_submit_to_cj`)

  /** The body of the `try` block: what has been written to the order when the
      block finishes or raises, and whether it raised. */
  function SubmitAttempt(o: Order, so: Host.SaleOrder, config: Config.Config, now: int, ex: Api.Exchange)
    : (r: (Order, Outcome<Error>))
    ensures r.0.state == (if r.1.Pass? then Submitted else o.state)
    ensures r.1.Pass? ==> Truthy(r.0.cjOrderId)
    ensures r.1.Fail? ==> r.0.cjOrderId == o.cjOrderId && r.0.cjOrderNum == o.cjOrderNum
    ensures r.0 == o.(cjOrderId := r.0.cjOrderId, cjOrderNum := r.0.cjOrderNum, state := r.0.state,
                      requestData := r.0.requestData, responseData := r.0.responseData)
    ensures Config.GetApiClient(config).Failure? ==> r == (o, Fail(Config.GetApiClient(config).error))
    ensures Config.GetApiClient(config).Success? && PrepareOrderData(so).Failure? ==>
      r == (o, Fail(PrepareOrderData(so).error))
    ensures Config.GetApiClient(config).Success? && PrepareOrderData(so).Success? ==>
      var body := OrderDataValue(PrepareOrderData(so).value);
      var d := Api.MakeRequest(Config.GetApiClient(config).value, now, Api.CreateOrder(body), ex).result;
      && r.0.requestData == Some(body)
      && (d.Failure? ==> r == (o.(requestData := Some(body)), Fail(d.error)))
      && (d.Success? ==>
            && r.0.responseData == Some(d.value)
            && (r.1.Pass? <==> d.value.Obj? && Truthy(Get(d.value, "orderId", Null).value))
            && (!d.value.Obj? ==> r.1 == Fail(Get(d.value, "orderId", Null).error))
            && (d.value.Obj? && !Truthy(Get(d.value, "orderId", Null).value) ==>
                  r.1 == Fail(UserError("Failed to get order ID from CJDropshipping")))
            && (r.1.Pass? ==>
                  && r.0.cjOrderId == Get(d.value, "orderId", Null).value
                  && r.0.cjOrderNum == Get(d.value, "orderNum", Str("")).value))
  {
    match Config.GetApiClient(config)
    case Failure(e) => (o, Fail(e))
    case Success(client) =>
      match PrepareOrderData(so)
      case Failure(e) => (o, Fail(e))
      case Success(data) =>
        var body := OrderDataValue(data);
        var o1 := o.(requestData := Some(body));
        match Api.MakeRequest(client, now, Api.CreateOrder(body), ex).result
        case Failure(e) => (o1, Fail(e))
        case Success(result) =>
          var o2 := o1.(responseData := Some(result));
          match Get(result, "orderId", Null)
          case Failure(e) => (o2, Fail(e))
          case Success(orderId) =>
            if Truthy(orderId) then
              (o2.(cjOrderId := orderId, cjOrderNum := Get(result, "orderNum", Str("")).value, state := Submitted), Pass)
            else
              (o2, Fail(UserError("Failed to get order ID from CJDropshipping")))
  }

  /** `action_submit_to_cj`. Only a draft order can be submitted; otherwise
      nothing changes. A failure inside the attempt (missing credentials, no
      eligible line, a rejected request, a reply without `orderId`) puts the
      order in `error` with the message and is raised again, wrapped. */
  function Submit(o: Order, so: Host.SaleOrder, config: Config.Config, now: int, ex: Api.Exchange)
    : (r: (Order, Outcome<Error>))
    ensures o.state != Draft ==> r == (o, Fail(UserError("Only draft orders can be submitted")))
    ensures o.state == Draft && o.saleOrder.None? ==> r == (o, Fail(UserError("Sale order is required")))
    ensures r.1.Pass? <==> o.state == Draft && o.saleOrder.Some? && SubmitAttempt(o, so, config, now, ex).1.Pass?
    ensures r.1.Pass? ==> r.0.state == Submitted && Truthy(r.0.cjOrderId)
    ensures o.state == Draft && o.saleOrder.Some? && r.1.Fail? ==>
      && r.0.state == ErrorState
      && r.0.cjOrderId == o.cjOrderId
      && r.0.errorMessage == Some(SubmitAttempt(o, so, config, now, ex).1.error)
      && r.1 == Fail(Wrapped("Failed to submit order: %s", r.0.errorMessage.value))
    ensures r.0.trackingNumber == o.trackingNumber && r.0.shippingMethod == o.shippingMethod
    ensures r.0.saleOrder == o.saleOrder && r.0.configId == o.configId
    ensures r.0.logisticsInfo == o.logisticsInfo
  {
    if o.state != Draft then (o, Fail(UserError("Only draft orders can be submitted")))
    else if o.saleOrder.None? then (o, Fail(UserError("Sale order is required")))
    else
      var (o1, outcome) := SubmitAttempt(o, so, config, now, ex);
      match outcome
      case Pass => (o1, Pass)
      case Fail(e) =>
        (o1.(state := ErrorState, errorMessage := Some(e)), Fail(Wrapped("Failed to submit order: %s", e)))
  }

  /** A draft order whose sale order has no eligible line ends in `error`
      (with credentials configured), not back in `draft`. */
  lemma NoEligibleLinesEndsInError(o: Order, so: Host.SaleOrder, config: Config.Config, now: int, ex: Api.Exchange)
    requires o.state == Draft && o.saleOrder.Some?
    requires config.apiEmail != "" && config.apiPassword != ""
    requires CountEligible(so.lines) == 0
    ensures Submit(o, so, config, now, ex).0.state == ErrorState
    ensures Submit(o, so, config, now, ex).0.errorMessage
            == Some(UserError("No CJDropshipping products found in this order"))
    ensures Submit(o, so, config, now, ex).0.requestData == o.requestData
  {
  }

  /** An accepted submission records the supplier's id and number ('' when the
      reply has none) and moves to `submitted`. */
  lemma AcceptedSubmission(o: Order, so: Host.SaleOrder, config: Config.Config, now: int, ex: Api.Exchange)
    requires Submit(o, so, config, now, ex).1.Pass?
    ensures var r := Api.MakeRequest(Config.GetApiClient(config).value, now,
                                     Api.CreateOrder(OrderDataValue(PrepareOrderData(so).value)), ex).result;
      && r.Success? && r.value.Obj?
      && Submit(o, so, config, now, ex).0.cjOrderId == r.value.fields["orderId"]
      && Submit(o, so, config, now, ex).0.cjOrderNum == Get(r.value, "orderNum", Str("")).value
      && Submit(o, so, config, now, ex).0.requestData == Some(OrderDataValue(PrepareOrderData(so).value))
      && Submit(o, so, config, now, ex).0.responseData == Some(r.value)
  {
  }

  /** The converse: a draft order with a sale order, credentials and an
      eligible line, whose creation request is answered with a truthy
      `orderId`, is accepted and stores that id and the number ('' when
      missing). */
  lemma ReplyWithOrderIdIsAccepted(o: Order, so: Host.SaleOrder, config: Config.Config, now: int, ex: Api.Exchange)
    requires o.state == Draft && o.saleOrder.Some?
    requires Config.GetApiClient(config).Success? && PrepareOrderData(so).Success?
    requires var d := Api.MakeRequest(Config.GetApiClient(config).value, now,
                                      Api.CreateOrder(OrderDataValue(PrepareOrderData(so).value)), ex).result;
      d.Success? && d.value.Obj? && "orderId" in d.value.fields && Truthy(d.value.fields["orderId"])
    ensures var d := Api.MakeRequest(Config.GetApiClient(config).value, now,
                                     Api.CreateOrder(OrderDataValue(PrepareOrderData(so).value)), ex).result;
      && Submit(o, so, config, now, ex).1 == Pass
      && Submit(o, so, config, now, ex).0.state == Submitted
      && Submit(o, so, config, now, ex).0.cjOrderId == d.value.fields["orderId"]
      && Submit(o, so, config, now, ex).0.cjOrderNum == Get(d.value, "orderNum", Str("")).value
  {
  }

  // ---------------------------------------------------------------------------
  // Remote status (`_update_from_cj_data`)

  /** The fixed table from the supplier's status words to local states. */
  const StatusTable: map<string, OrderState> :=
    map["PENDING" := Submitted, "PROCESSING" := Processing, "SHIPPED" := Shipped,
        "DELIVERED" := Delivered, "CANCELLED" := Cancelled]

  /** The table has exactly five entries and never leads to `draft` or `error`. */
  lemma StatusTableShape()
    ensures StatusTable.Keys == {"PENDING", "PROCESSING", "SHIPPED", "DELIVERED", "CANCELLED"}
    ensures forall k :: k in StatusTable ==> StatusTable[k] != Draft && StatusTable[k] != ErrorState
  {
  }

  /** The state a status word selects: its table entry after upper-casing, or
      the current state for a word the table does not know. */
  function MappedState(current: OrderState, status: string): (r: OrderState)
    ensures Text.Upper(status) in StatusTable ==> r == StatusTable[Text.Upper(status)]
    ensures Text.Upper(status) !in StatusTable ==> r == current
    ensures r != current ==> r != Draft && r != ErrorState
  {
    var key := Text.Upper(status);
    if key in StatusTable then StatusTable[key] else current
  }

  /** `_update_from_cj_data`: overwrite the state from the status table (a
      missing status reads as '' and keeps the state), and the tracking number
      and shipping method with the reply's values when it has those keys. No
      other field is written. `.get` on a non-object and `.upper()` on a
      non-string status raise before anything is written. */
  function UpdateFromCjData(o: Order, data: Value): (r: Result<Order, Error>)
    ensures r.Success? <==> data.Obj? && ("status" in data.fields ==> data.fields["status"].Str?)
    ensures r.Success? ==>
      var m := data.fields;
      && r.value.state == (if "status" in m then MappedState(o.state, m["status"].s) else o.state)
      && r.value.trackingNumber == (if "trackingNumber" in m then m["trackingNumber"] else o.trackingNumber)
      && r.value.shippingMethod == (if "shippingMethod" in m then m["shippingMethod"] else o.shippingMethod)
      && r.value == o.(state := r.value.state, trackingNumber := r.value.trackingNumber,
                       shippingMethod := r.value.shippingMethod)
  {
    match Get(data, "status", Str(""))
    case Failure(e) => Failure(e)
    case Success(status) =>
      match UpperOf(status)
      case Failure(e) => Failure(e)
      case Success(key) =>
        var newState := if key in StatusTable then StatusTable[key] else o.state;
        Success(o.(state := newState,
                   trackingNumber := Get(data, "trackingNumber", o.trackingNumber).value,
                   shippingMethod := Get(data, "shippingMethod", o.shippingMethod).value))
  }

  /** Each status word of the table moves the order to its local state, whatever
      the state before and in whatever letter case it arrives. */
  lemma StatusWords(o: Order, word: string, tracking: Value)
    requires Text.Upper(word) in StatusTable
    ensures UpdateFromCjData(o, Obj(map["status" := Str(word)])).Success?
    ensures UpdateFromCjData(o, Obj(map["status" := Str(word)])).value.state == StatusTable[Text.Upper(word)]
  {
  }

  /** A reply whose status is missing, or a word outside the table, keeps the
      state. */
  lemma UnknownStatusKeepsState(o: Order, data: Value)
    requires data.Obj?
    requires "status" in data.fields ==> data.fields["status"].Str? && Text.Upper(data.fields["status"].s) !in StatusTable
    ensures UpdateFromCjData(o, data).Success?
    ensures UpdateFromCjData(o, data).value.state == o.state
  {
  }

  /** Applying the same reply twice gives the record applying it once gives. */
  lemma UpdateIdempotent(o: Order, data: Value)
    requires UpdateFromCjData(o, data).Success?
    ensures UpdateFromCjData(UpdateFromCjData(o, data).value, data) == UpdateFromCjData(o, data)
  {
    var o1 := UpdateFromCjData(o, data).value;
    var o2 := UpdateFromCjData(o1, data).value;
    var m := data.fields;
    if "status" in m {
      var key := Text.Upper(m["status"].s);
      if key !in StatusTable {
        assert o2.state == o1.state;
      }
    }
  }

  /** The update is a plain overwrite, not a monotonic one: a `PENDING` reply
      takes a `processing` order back to `submitted`, and any table word moves
      even a `delivered` or `cancelled` order. */
  lemma UpdateIsNotMonotonic(o: Order)
    requires o.state == Processing
    ensures UpdateFromCjData(o, Obj(map["status" := Str("PENDING")])).value.state == Submitted
    ensures UpdateFromCjData(o.(state := Delivered), Obj(map["status" := Str("pending")])).value.state == Submitted
    ensures UpdateFromCjData(o.(state := Cancelled), Obj(map["status" := Str("shipped")])).value.state == Shipped
  {
    assert Text.Upper("PENDING") == "PENDING";
    assert Text.Upper("pending") == "PENDING";
    assert Text.Upper("shipped") == "SHIPPED";
  }

  // ---------------------------------------------------------------------------
  // Status refresh and logistics query

  /** `action_update_status`: needs a supplier order id; fetches the order and,
      when the reply is non-empty, applies it. Failures are raised, wrapped,
      and change nothing. */
  function UpdateStatus(o: Order, config: Config.Config, now: int, ex: Api.Exchange)
    : (r: (Order, Outcome<Error>))
    ensures !Truthy(o.cjOrderId) ==> r == (o, Fail(UserError("CJ Order ID is required")))
    ensures r.1.Fail? ==> r.0 == o
    ensures r.0 != o ==> exists d :: UpdateFromCjData(o, d) == Success(r.0)
    ensures r.0.cjOrderId == o.cjOrderId
    ensures Truthy(o.cjOrderId) && Config.GetApiClient(config).Failure? ==>
      r == (o, Fail(Wrapped("Failed to update order status: %s", Config.GetApiClient(config).error)))
    ensures Truthy(o.cjOrderId) && Config.GetApiClient(config).Success? ==>
      match Api.MakeRequest(Config.GetApiClient(config).value, now, Api.OrderDetail(o.cjOrderId), ex).result
      case Failure(e) => r == (o, Fail(Wrapped("Failed to update order status: %s", e)))
      case Success(d) =>
        && (!Truthy(d) ==> r == (o, Pass))
        && (Truthy(d) ==>
              match UpdateFromCjData(o, d)
              case Success(o1) => r == (o1, Pass)
              case Failure(e) => r == (o, Fail(Wrapped("Failed to update order status: %s", e))))
  {
    if !Truthy(o.cjOrderId) then (o, Fail(UserError("CJ Order ID is required")))
    else
      match Config.GetApiClient(config)
      case Failure(e) => (o, Fail(Wrapped("Failed to update order status: %s", e)))
      case Success(client) =>
        match Api.MakeRequest(client, now, Api.OrderDetail(o.cjOrderId), ex).result
        case Failure(e) => (o, Fail(Wrapped("Failed to update order status: %s", e)))
        case Success(result) =>
          if !Truthy(result) then (o, Pass)
          else
            match UpdateFromCjData(o, result)
            case Failure(e) => (o, Fail(Wrapped("Failed to update order status: %s", e)))
            case Success(o1) => (o1, Pass)
  }

  /** `action_query_logistics`: needs a supplier order id; a non-empty reply is
      stored with the time of the query, and its tracking number replaces the
      order's only when the reply has a non-empty one. The state is never
      touched. */
  function QueryLogistics(o: Order, config: Config.Config, now: int, ex: Api.Exchange)
    : (r: (Order, Outcome<Error>))
    ensures !Truthy(o.cjOrderId) ==> r == (o, Fail(UserError("CJ Order ID is required")))
    ensures r.0.state == o.state && r.0.cjOrderId == o.cjOrderId
    ensures r.0.trackingNumber != o.trackingNumber ==>
      r.0.logisticsInfo.Obj? && "trackingNumber" in r.0.logisticsInfo.fields
      && r.0.trackingNumber == r.0.logisticsInfo.fields["trackingNumber"] && Truthy(r.0.trackingNumber)
    ensures r.0 != o ==> r.0.lastLogisticsUpdate == Some(now) && Truthy(r.0.logisticsInfo)
    ensures r.0 == o.(logisticsInfo := r.0.logisticsInfo, lastLogisticsUpdate := r.0.lastLogisticsUpdate,
                      trackingNumber := r.0.trackingNumber)
    ensures Truthy(o.cjOrderId) && Config.GetApiClient(config).Failure? ==>
      r == (o, Fail(Wrapped("Failed to query logistics: %s", Config.GetApiClient(config).error)))
    ensures Truthy(o.cjOrderId) && Config.GetApiClient(config).Success? ==>
      match Api.MakeRequest(Config.GetApiClient(config).value, now, Api.QueryLogistics(o.cjOrderId), ex).result
      case Failure(e) => r == (o, Fail(Wrapped("Failed to query logistics: %s", e)))
      case Success(d) =>
        && (!Truthy(d) ==> r == (o, Pass))
        && (Truthy(d) ==>
              && r.0.logisticsInfo == d && r.0.lastLogisticsUpdate == Some(now)
              && (r.1.Pass? <==> d.Obj?)
              && (d.Obj? && "trackingNumber" in d.fields && Truthy(d.fields["trackingNumber"]) ==>
                    r.0.trackingNumber == d.fields["trackingNumber"])
              && (!(d.Obj? && "trackingNumber" in d.fields && Truthy(d.fields["trackingNumber"])) ==>
                    r.0.trackingNumber == o.trackingNumber))
  {
    if !Truthy(o.cjOrderId) then (o, Fail(UserError("CJ Order ID is required")))
    else
      match Config.GetApiClient(config)
      case Failure(e) => (o, Fail(Wrapped("Failed to query logistics: %s", e)))
      case Success(client) =>
        match Api.MakeRequest(client, now, Api.QueryLogistics(o.cjOrderId), ex).result
        case Failure(e) => (o, Fail(Wrapped("Failed to query logistics: %s", e)))
        case Success(result) =>
          if !Truthy(result) then (o, Pass)
          else
            var o1 := o.(logisticsInfo := result, lastLogisticsUpdate := Some(now));
            match Get(result, "trackingNumber", Null)
            case Failure(e) => (o1, Fail(Wrapped("Failed to query logistics: %s", e)))
            case Success(t) => (if Truthy(t) then o1.(trackingNumber := t) else o1, Pass)
  }

  /** Refreshing the status a second time with the same reply changes nothing
      more: the reply is requested by the same id, and the status-table update
      is idempotent. */
  lemma UpdateStatusIdempotent(o: Order, config: Config.Config, now: int, ex: Api.Exchange)
    ensures UpdateStatus(UpdateStatus(o, config, now, ex).0, config, now, ex) == UpdateStatus(o, config, now, ex)
  {
    var r := UpdateStatus(o, config, now, ex);
    if r.0 != o {
      var client := Config.GetApiClient(config).value;
      var d := Api.MakeRequest(client, now, Api.OrderDetail(o.cjOrderId), ex).result.value;
      UpdateIdempotent(o, d);
    }
  }

  /** Querying the logistics a second time with the same reply changes
      nothing more: the reply and the time are stored again, and so is the
      tracking number it carries. */
  lemma QueryLogisticsIdempotent(o: Order, config: Config.Config, now: int, ex: Api.Exchange)
    ensures QueryLogistics(QueryLogistics(o, config, now, ex).0, config, now, ex) == QueryLogistics(o, config, now, ex)
  {
  }

  // ---------------------------------------------------------------------------
  // The order store and the `cj_order_id_unique` constraint

  /** No two orders share a supplier order id. */
  predicate UniqueCjOrderIds(orders: seq<Order>) {
    forall i, j :: 0 <= i < |orders| && 0 <= j < |orders| && i != j && !StoredAsNull(orders[i].cjOrderId) ==>
      orders[i].cjOrderId != orders[j].cjOrderId
  }

  predicate HeldByAnother(orders: seq<Order>, k: nat, id: Value) {
    exists j :: 0 <= j < |orders| && j != k && orders[j].cjOrderId == id
  }

  /** Submission of order `k` of the store. When the supplier's id is already
      held by another order the database refuses the write and the transaction
      is lost: the store stays as it was. */
  function SubmitInStore(orders: seq<Order>, k: nat, so: Host.SaleOrder, config: Config.Config, now: int, ex: Api.Exchange)
    : (r: (seq<Order>, Outcome<Error>))
    requires k < |orders|
    ensures UniqueCjOrderIds(orders) ==> UniqueCjOrderIds(r.0)
    ensures |r.0| == |orders|
    ensures forall j :: 0 <= j < |orders| && j != k ==> r.0[j] == orders[j]
    ensures r.0 == orders || r.0 == orders[k := Submit(orders[k], so, config, now, ex).0]
    ensures r.0 == orders ==> r.1.Fail? || Submit(orders[k], so, config, now, ex).0 == orders[k]
    ensures r.1 == Fail(UniqueViolation("cj_order_id_unique")) <==>
      var o1 := Submit(orders[k], so, config, now, ex).0;
      o1.cjOrderId != orders[k].cjOrderId && HeldByAnother(orders, k, o1.cjOrderId)
    ensures var (o1, outcome) := Submit(orders[k], so, config, now, ex);
      !(o1.cjOrderId != orders[k].cjOrderId && HeldByAnother(orders, k, o1.cjOrderId)) ==>
        r == (orders[k := o1], outcome)
  {
    var (o1, outcome) := Submit(orders[k], so, config, now, ex);
    if o1.cjOrderId != orders[k].cjOrderId && HeldByAnother(orders, k, o1.cjOrderId) then
      (orders, Fail(UniqueViolation("cj_order_id_unique")))
    else
      var r := orders[k := o1];
      assert UniqueCjOrderIds(orders) ==> UniqueCjOrderIds(r) by {
        if UniqueCjOrderIds(orders) && o1.cjOrderId != orders[k].cjOrderId {
          assert !HeldByAnother(orders, k, o1.cjOrderId);
        }
      }
      (r, outcome)
  }

  /** `search([('cj_order_id', '=', id)], limit=1)` under the `create_date desc`
      order: the newest order carrying the id. */
  function FindByCjOrderId(orders: seq<Order>, id: Value): (r: Option<nat>)
    ensures r.Some? ==> r.value < |orders| && orders[r.value].cjOrderId == id
    ensures r.Some? ==> forall j :: r.value < j < |orders| ==> orders[j].cjOrderId != id
    ensures r.None? ==> forall j :: 0 <= j < |orders| ==> orders[j].cjOrderId != id
  {
    if |orders| == 0 then None
    else if orders[|orders| - 1].cjOrderId == id then Some(|orders| - 1)
    else FindByCjOrderId(orders[..|orders| - 1], id)
  }

  /** Under the constraint the order a supplier id finds is the only one that
      carries it. */
  lemma FindIsUnique(orders: seq<Order>, id: Value, j: nat)
    requires UniqueCjOrderIds(orders) && !StoredAsNull(id)
    requires j < |orders| && orders[j].cjOrderId == id
    ensures FindByCjOrderId(orders, id) == Some(j)
  {
  }
}

=== FILE: sales.dfy ===
/** The host sale order's side of the integration (`sale.order`): creating
    the supplier order of a sale order at most once, the auto-submission on
    confirmation, and the manual submission. */
module Sales {
  import opened Wrappers
  import opened Values
  import Api
  import Config
  import Host
  import Orders

  /** The records the sale-order actions read and write. */
  datatype Shop = Shop(sales: seq<Host.SaleOrder>, orders: seq<Orders.Order>, configs: seq<Config.Config>)

  /** The integrity the database keeps: a sale order's link names an order of
      that sale order, every order belongs to an existing sale order and
      configuration (both fields are required), and supplier order ids are
      unique. */
  predicate Valid(shop: Shop) {
    && (forall s :: 0 <= s < |shop.sales| && shop.sales[s].cjOrder.Some? ==>
          shop.sales[s].cjOrder.value < |shop.orders| && shop.orders[shop.sales[s].cjOrder.value].saleOrder == Some(s))
    && (forall k :: 0 <= k < |shop.orders| ==>
          && shop.orders[k].saleOrder.Some? && shop.orders[k].saleOrder.value < |shop.sales|
          && Config.Browse(shop.configs, shop.orders[k].configId).Some?)
    && Orders.UniqueCjOrderIds(shop.orders)
  }

  /** Links, once made, stay; sale order lines and configurations are never
      written. */
  predicate Grows(shop: Shop, shop': Shop) {
    && |shop'.sales| == |shop.sales| && |shop'.orders| >= |shop.orders| && shop'.configs == shop.configs
    && (forall t :: 0 <= t < |shop.sales| ==> shop'.sales[t].lines == shop.sales[t].lines)
    && (forall t :: 0 <= t < |shop.sales| && shop.sales[t].cjOrder.Some? ==> shop'.sales[t].cjOrder == shop.sales[t].cjOrder)
  }

  /** The creation step: a draft order for sale order `s` under `config`,
      appended to the store, and the sale order's link to it. */
  function Link(shop: Shop, s: nat, config: Config.Config): (r: Shop)
    requires s < |shop.sales| && shop.sales[s].cjOrder.None?
    ensures Grows(shop, r)
    ensures |r.orders| == |shop.orders| + 1 && r.orders[..|shop.orders|] == shop.orders
    ensures r.orders[|shop.orders|] == Orders.NewOrder(s, config.id)
    ensures r.orders == shop.orders + [Orders.NewOrder(s, config.id)]
    ensures r.sales == shop.sales[s := shop.sales[s].(cjOrder := Some(|shop.orders|))]
    ensures Valid(shop) && config in shop.configs ==> Valid(r)
  {
    var k := |shop.orders|;
    var r := shop.(sales := shop.sales[s := shop.sales[s].(cjOrder := Some(k))],
                   orders := shop.orders + [Orders.NewOrder(s, config.id)]);
    assert r.orders[..k] == shop.orders;
    assert Valid(shop) && config in shop.configs ==> Valid(r) by {
      if Valid(shop) && config in shop.configs {
        var i :| 0 <= i < |shop.configs| && shop.configs[i] == config;
        assert Config.Browse(shop.configs, config.id).Some?;
        assert Orders.UniqueCjOrderIds(r.orders);
      }
    }
    r
  }

  /** The auto-submission step: submit order `k` of sale order `s`; a failure
      is posted on the sale order and not raised. */
  function AutoSubmit(shop: Shop, s: nat, k: nat, config: Config.Config, now: int, ex: Api.Exchange): (r: Shop)
    requires s < |shop.sales| && k < |shop.orders| && shop.sales[s].cjOrder == Some(k)
    ensures Grows(shop, r) && |r.orders| == |shop.orders|
    ensures Valid(shop) ==> Valid(r)
    ensures r.orders == Orders.SubmitInStore(shop.orders, k, shop.sales[s], config, now, ex).0
    ensures forall t :: 0 <= t < |shop.sales| && t != s ==> r.sales[t] == shop.sales[t]
    ensures r.sales[s] == shop.sales[s] || r.sales[s] == shop.sales[s].(chatter := r.sales[s].chatter)
    ensures Orders.SubmitInStore(shop.orders, k, shop.sales[s], config, now, ex).1.Fail? ==>
      r.sales[s].chatter == shop.sales[s].chatter
        + [Host.SubmitFailed(Orders.SubmitInStore(shop.orders, k, shop.sales[s], config, now, ex).1.error)]
  {
    var sale := shop.sales[s];
    var (orders1, outcome) := Orders.SubmitInStore(shop.orders, k, sale, config, now, ex);
    var sale1 := if outcome.Fail? then sale.(chatter := sale.chatter + [Host.SubmitFailed(outcome.error)]) else sale;
    shop.(orders := orders1, sales := shop.sales[s := sale1])
  }

  /** The creation under `config`: link a new draft order, then submit it at
      once when the configuration auto-fulfils. */
  function LinkAndFulfil(shop: Shop, s: nat, config: Config.Config, now: int, ex: Api.Exchange): (r: Shop)
    requires s < |shop.sales| && shop.sales[s].cjOrder.None?
    ensures Grows(shop, r)
    ensures Valid(shop) && config in shop.configs ==> Valid(r)
    ensures r.sales[s].cjOrder == Some(|shop.orders|)
    ensures forall t :: 0 <= t < |shop.sales| && t != s ==> r.sales[t] == shop.sales[t]
    ensures var k := |shop.orders|;
      && |r.orders| == k + 1 && r.orders[..k] == shop.orders
      && r.orders[k].saleOrder == Some(s) && r.orders[k].configId == config.id
      && (!config.autoFulfillOrders ==> r.orders[k] == Orders.NewOrder(s, config.id))
    ensures config.autoFulfillOrders ==>
      var k := |shop.orders|;
      var submitted := Orders.SubmitInStore(shop.orders + [Orders.NewOrder(s, config.id)], k,
                                            shop.sales[s].(cjOrder := Some(k)), config, now, ex);
      && r.orders == submitted.0
      && (submitted.1.Fail? ==> r.sales[s].chatter == shop.sales[s].chatter + [Host.SubmitFailed(submitted.1.error)])
  {
    var k := |shop.orders|;
    var shop1 := Link(shop, s, config);
    if !config.autoFulfillOrders then shop1
    else
      var shop2 := AutoSubmit(shop1, s, k, config, now, ex);
      assert shop2.orders[..k] == shop.orders by {
        assert forall j :: 0 <= j < k ==> shop2.orders[j] == shop1.orders[j];
      }
      shop2
  }

  /** `_create_cjdropship_order` for sale order `s`: the linked order when there
      is one, with nothing written. Otherwise a draft order for `s` under the
      default configuration is created and linked; with auto-fulfilment it is
      submitted at once, and a failed submission is posted on the sale order
      instead of being raised. Only a missing default configuration raises. */
  function CreateCjOrder(shop: Shop, s: nat, now: int, ex: Api.Exchange): (r: (Shop, Result<nat, Error>))
    requires s < |shop.sales|
    ensures shop.sales[s].cjOrder.Some? ==> r == (shop, Success(shop.sales[s].cjOrder.value))
    ensures r.1.Failure? <==> shop.sales[s].cjOrder.None? && Config.GetDefaultConfig(shop.configs).Failure?
    ensures r.1.Failure? ==> r.0 == shop && r.1.error == UserError("Please configure CJDropshipping settings first")
    ensures Grows(shop, r.0)
    ensures Valid(shop) ==> Valid(r.0)
    ensures r.1.Success? ==> r.0.sales[s].cjOrder == Some(r.1.value)
    ensures shop.sales[s].cjOrder.None? && r.1.Success? ==>
      var config := Config.GetDefaultConfig(shop.configs).value;
      var k := |shop.orders|;
      && r.1.value == k && |r.0.orders| == k + 1 && r.0.orders[..k] == shop.orders
      && r.0.orders[k].saleOrder == Some(s) && r.0.orders[k].configId == config.id
      && (!config.autoFulfillOrders ==> r.0.orders[k] == Orders.NewOrder(s, config.id))
      && (forall t :: 0 <= t < |shop.sales| && t != s ==> r.0.sales[t] == shop.sales[t])
    ensures shop.sales[s].cjOrder.None? && r.1.Success? && Config.GetDefaultConfig(shop.configs).value.autoFulfillOrders ==>
      var config := Config.GetDefaultConfig(shop.configs).value;
      var k := |shop.orders|;
      var submitted := Orders.SubmitInStore(shop.orders + [Orders.NewOrder(s, config.id)], k,
                                            shop.sales[s].(cjOrder := Some(k)), config, now, ex);
      && r.0.orders == submitted.0
      && (submitted.1.Fail? ==> r.0.sales[s].chatter == shop.sales[s].chatter + [Host.SubmitFailed(submitted.1.error)])
  {
    if shop.sales[s].cjOrder.Some? then (shop, Success(shop.sales[s].cjOrder.value))
    else
      match Config.GetDefaultConfig(shop.configs)
      case Failure(e) => (shop, Failure(e))
      case Success(config) => (LinkAndFulfil(shop, s, config, now, ex), Success(|shop.orders|))
  }

  /** Asking twice for the supplier order of a sale order gives the same order
      and writes nothing the second time. */
  lemma CreateCjOrderIdempotent(shop: Shop, s: nat, now: int, ex: Api.Exchange, later: int, ex2: Api.Exchange)
    requires s < |shop.sales|
    requires CreateCjOrder(shop, s, now, ex).1.Success?
    ensures var (shop1, r1) := CreateCjOrder(shop, s, now, ex);
      CreateCjOrder(shop1, s, later, ex2) == (shop1, r1)
  {
  }

  /** With auto-fulfilment, a submission the supplier rejects does not fail the
      creation: the order exists, is linked, and the failure is posted on the
      sale order. */
  lemma AutoSubmitFailureIsPosted(shop: Shop, s: nat, now: int, ex: Api.Exchange)
    requires s < |shop.sales| && shop.sales[s].cjOrder.None?
    requires Config.GetDefaultConfig(shop.configs).Success?
    requires Config.GetDefaultConfig(shop.configs).value.autoFulfillOrders
    requires var config := Config.GetDefaultConfig(shop.configs).value;
      var k := |shop.orders|;
      Orders.SubmitInStore(shop.orders + [Orders.NewOrder(s, config.id)], k,
                           shop.sales[s].(cjOrder := Some(k)), config, now, ex).1.Fail?
    ensures var (shop1, r) := CreateCjOrder(shop, s, now, ex);
      && r == Success(|shop.orders|)
      && shop1.sales[s].cjOrder == Some(|shop.orders|)
      && |shop1.sales[s].chatter| == |shop.sales[s].chatter| + 1
      && shop1.sales[s].chatter[..|shop.sales[s].chatter|] == shop.sales[s].chatter
      && shop1.sales[s].chatter[|shop.sales[s].chatter|].SubmitFailed?
  {
  }

  // ---------------------------------------------------------------------------
  // Confirmation (`action_confirm`)

  /** Whether the default configuration exists and auto-fulfils. */
  predicate AutoFulfils(configs: seq<Config.Config>) {
    Config.GetDefaultConfig(configs).Success? && Config.GetDefaultConfig(configs).value.autoFulfillOrders
  }

  /** Whether confirming sale order `s` creates its supplier order: it has a
      supplier line, no link yet, and the default configuration auto-fulfils. */
  predicate CreatesOnConfirm(shop: Shop, s: nat)
    requires s < |shop.sales|
  {
    Host.IsCjOrder(shop.sales[s]) && shop.sales[s].cjOrder.None? && AutoFulfils(shop.configs)
  }

  /** The integration's part of confirming sale order `s`. It never raises: a
      missing default configuration is only logged. */
  function Confirm(shop: Shop, s: nat, now: int, ex: Api.Exchange): (r: Shop)
    requires s < |shop.sales|
    ensures Grows(shop, r)
    ensures Valid(shop) ==> Valid(r)
    ensures CreatesOnConfirm(shop, s) ==> r.sales[s].cjOrder == Some(|shop.orders|) && |r.orders| == |shop.orders| + 1
    ensures CreatesOnConfirm(shop, s) ==> r == CreateCjOrder(shop, s, now, ex).0
    ensures CreatesOnConfirm(shop, s) ==>
      && r.orders[|shop.orders|].saleOrder == Some(s)
      && r.orders[|shop.orders|].configId == Config.GetDefaultConfig(shop.configs).value.id
    ensures r.orders[..|shop.orders|] == shop.orders
    ensures !CreatesOnConfirm(shop, s) ==> r == shop
    ensures Host.IsCjOrder(shop.sales[s]) && AutoFulfils(shop.configs) ==> r.sales[s].cjOrder.Some?
    ensures forall t :: 0 <= t < |shop.sales| && t != s ==> r.sales[t] == shop.sales[t]
  {
    if Host.IsCjOrder(shop.sales[s]) && shop.sales[s].cjOrder.None? then
      match Config.GetDefaultConfig(shop.configs)
      case Failure(_) => shop
      case Success(config) =>
        if config.autoFulfillOrders then CreateCjOrder(shop, s, now, ex).0 else shop
    else shop
  }

  /** Every supplier sale order among the first `n` selected is linked. */
  predicate LinkedUpTo(shop: Shop, r: Shop, selection: seq<nat>, n: nat)
    requires n <= |selection| && |r.sales| == |shop.sales|
    requires forall i :: 0 <= i < |selection| ==> selection[i] < |shop.sales|
  {
    forall i :: 0 <= i < n && Host.IsCjOrder(shop.sales[selection[i]]) ==> r.sales[selection[i]].cjOrder.Some?
  }

  /** One confirmation keeps the earlier links and adds the next one. */
  lemma ConfirmStep(shop: Shop, r: Shop, selection: seq<nat>, n: nat, now: int, ex: Api.Exchange)
    requires n < |selection|
    requires forall i :: 0 <= i < |selection| ==> selection[i] < |shop.sales|
    requires Grows(shop, r) && AutoFulfils(shop.configs) && LinkedUpTo(shop, r, selection, n)
    ensures Grows(r, Confirm(r, selection[n], now, ex))
    ensures LinkedUpTo(shop, Confirm(r, selection[n], now, ex), selection, n + 1)
  {
    var r' := Confirm(r, selection[n], now, ex);
    assert Host.IsCjOrder(r.sales[selection[n]]) == Host.IsCjOrder(shop.sales[selection[n]]);
  }

  /** Every supplier sale order among the first `n` selected that had no link
      in `shop` is linked in `r` to a new order of its own, created under
      the default configuration. */
  predicate CreatedUpTo(shop: Shop, r: Shop, selection: seq<nat>, n: nat)
    requires n <= |selection| && |r.sales| == |shop.sales|
    requires forall i :: 0 <= i < |selection| ==> selection[i] < |shop.sales|
    requires Config.GetDefaultConfig(shop.configs).Success?
  {
    forall i :: 0 <= i < n && Host.IsCjOrder(shop.sales[selection[i]]) && shop.sales[selection[i]].cjOrder.None? ==>
      var link := r.sales[selection[i]].cjOrder;
      && link.Some? && |shop.orders| <= link.value < |r.orders|
      && r.orders[link.value].saleOrder == Some(selection[i])
      && r.orders[link.value].configId == Config.GetDefaultConfig(shop.configs).value.id
  }

  /** One confirmation keeps the orders created so far and creates the next
      one when it is due. */
  lemma CreatedStep(shop: Shop, r: Shop, selection: seq<nat>, n: nat, now: int, ex: Api.Exchange)
    requires n < |selection|
    requires forall i :: 0 <= i < |selection| ==> selection[i] < |shop.sales|
    requires Grows(shop, r) && AutoFulfils(shop.configs) && r.orders[..|shop.orders|] == shop.orders
    requires CreatedUpTo(shop, r, selection, n)
    requires forall t :: 0 <= t < |shop.sales| && t !in selection[..n] ==> r.sales[t].cjOrder == shop.sales[t].cjOrder
    ensures CreatedUpTo(shop, Confirm(r, selection[n], now, ex), selection, n + 1)
  {
    var r' := Confirm(r, selection[n], now, ex);
    var s := selection[n];
    assert Host.IsCjOrder(r.sales[s]) == Host.IsCjOrder(shop.sales[s]);
    forall i | 0 <= i < n + 1 && Host.IsCjOrder(shop.sales[selection[i]]) && shop.sales[selection[i]].cjOrder.None?
      ensures var link := r'.sales[selection[i]].cjOrder;
        && link.Some? && |shop.orders| <= link.value < |r'.orders|
        && r'.orders[link.value].saleOrder == Some(selection[i])
        && r'.orders[link.value].configId == Config.GetDefaultConfig(shop.configs).value.id
    {
      if i < n {
        var k := r.sales[selection[i]].cjOrder.value;
        assert r'.orders[k] == r.orders[k] by {
          assert r'.orders[..|r.orders|] == r.orders;
        }
      } else if r.sales[s].cjOrder.Some? {
        assert s in selection[..n];
        var j :| 0 <= j < n && selection[j] == s;
      }
    }
  }

  /** `action_confirm` over a selection of sale orders, in order; `exchanges`
      holds the supplier's replies for each one's submission. Every selected
      order that qualifies ends up linked to a supplier order, and one that had
      no link gets a new order of its own under the default configuration. */
  method ConfirmAll(shop: Shop, selection: seq<nat>, now: int, exchanges: seq<Api.Exchange>) returns (r: Shop)
    requires |exchanges| == |selection|
    requires forall i :: 0 <= i < |selection| ==> selection[i] < |shop.sales|
    ensures Grows(shop, r)
    ensures Valid(shop) ==> Valid(r)
    ensures AutoFulfils(shop.configs) ==>
      forall i :: 0 <= i < |selection| && Host.IsCjOrder(shop.sales[selection[i]]) ==> r.sales[selection[i]].cjOrder.Some?
    ensures AutoFulfils(shop.configs) ==> CreatedUpTo(shop, r, selection, |selection|)
    ensures r.orders[..|shop.orders|] == shop.orders
  {
    r := shop;
    var n := 0;
    while n < |selection|
      invariant 0 <= n <= |selection|
      invariant Grows(shop, r)
      invariant Valid(shop) ==> Valid(r)
      invariant AutoFulfils(shop.configs) ==> LinkedUpTo(shop, r, selection, n)
      invariant AutoFulfils(shop.configs) ==> CreatedUpTo(shop, r, selection, n)
      invariant r.orders[..|shop.orders|] == shop.orders
      invariant forall t :: 0 <= t < |shop.sales| && t !in selection[..n] ==> r.sales[t].cjOrder == shop.sales[t].cjOrder
    {
      if AutoFulfils(shop.configs) {
        ConfirmStep(shop, r, selection, n, now, exchanges[n]);
        CreatedStep(shop, r, selection, n, now, exchanges[n]);
      }
      r := Confirm(r, selection[n], now, exchanges[n]);
      assert selection[..n + 1] == selection[..n] + [selection[n]];
      n := n + 1;
    }
  }

  // ---------------------------------------------------------------------------
  // Manual submission (`action_submit_to_cjdropship`)

  /** `action_submit_to_cjdropship` for sale order `s`: refused for a sale order
      without supplier lines; otherwise the supplier order is created (and
      submitted only under auto-fulfilment) or, when it exists, submitted under
      its own configuration, with any failure raised. */
  function ManualSubmit(shop: Shop, s: nat, now: int, ex: Api.Exchange): (r: (Shop, Outcome<Error>))
    requires s < |shop.sales| && Valid(shop)
    ensures !Host.IsCjOrder(shop.sales[s]) ==>
      r == (shop, Fail(UserError("This order does not contain CJDropshipping products")))
    ensures Grows(shop, r.0) && Valid(r.0)
    ensures Host.IsCjOrder(shop.sales[s]) && shop.sales[s].cjOrder.None? ==>
      r.0 == CreateCjOrder(shop, s, now, ex).0 && (r.1.Pass? <==> CreateCjOrder(shop, s, now, ex).1.Success?)
    ensures Host.IsCjOrder(shop.sales[s]) && shop.sales[s].cjOrder.Some? ==>
      var k := shop.sales[s].cjOrder.value;
      var config := Config.Browse(shop.configs, shop.orders[k].configId).value;
      (r.0.orders, r.1) == Orders.SubmitInStore(shop.orders, k, shop.sales[s], config, now, ex)
      && r.0.sales == shop.sales
  {
    if !Host.IsCjOrder(shop.sales[s]) then
      (shop, Fail(UserError("This order does not contain CJDropshipping products")))
    else if shop.sales[s].cjOrder.None? then
      var (shop1, created) := CreateCjOrder(shop, s, now, ex);
      (shop1, if created.Failure? then Fail(created.error) else Pass)
    else
      var k := shop.sales[s].cjOrder.value;
      var config := Config.Browse(shop.configs, shop.orders[k].configId).value;
      var (orders1, outcome) := Orders.SubmitInStore(shop.orders, k, shop.sales[s], config, now, ex);
      (shop.(orders := orders1), outcome)
  }

  /** Without auto-fulfilment, a manual submission of an unlinked sale order
      only creates the supplier order: it stays in `draft` and nothing is sent. */
  lemma ManualSubmitWithoutAutoFulfilOnlyCreates(shop: Shop, s: nat, now: int, ex: Api.Exchange)
    requires s < |shop.sales| && Valid(shop)
    requires Host.IsCjOrder(shop.sales[s]) && shop.sales[s].cjOrder.None?
    requires Config.GetDefaultConfig(shop.configs).Success?
    requires !Config.GetDefaultConfig(shop.configs).value.autoFulfillOrders
    ensures var (shop1, outcome) := ManualSubmit(shop, s, now, ex);
      && outcome == Pass
      && shop1.orders[|shop.orders|].state == Orders.Draft
      && shop1.orders[|shop.orders|].requestData.None?
  {
  }

  /** An order that ended in `error` cannot be sent again from the sale order:
      the resubmission is refused and nothing changes. */
  lemma ErroredOrderIsStuck(shop: Shop, s: nat, now: int, ex: Api.Exchange)
    requires s < |shop.sales| && Valid(shop)
    requires Host.IsCjOrder(shop.sales[s]) && shop.sales[s].cjOrder.Some?
    requires shop.orders[shop.sales[s].cjOrder.value].state == Orders.ErrorState
    ensures ManualSubmit(shop, s, now, ex) == (shop, Fail(UserError("Only draft orders can be submitted")))
  {
    var k := shop.sales[s].cjOrder.value;
    assert shop.orders[k := shop.orders[k]] == shop.orders;
  }
}

=== FILE: text.dfy ===
/** String helpers with the meaning Python's `str` methods have on ASCII text:
    `lower()`, `upper()`, the `in` substring test, `str(n)` for integers and
    the decimal literals accepted by `int()` and `float()`. */
module Text {
  import opened Wrappers

  function LowerChar(c: char): char {
    if 'A' <= c <= 'Z' then (c as int + 32) as char else c
  }

  function UpperChar(c: char): char {
    if 'a' <= c <= 'z' then (c as int - 32) as char else c
  }

  /** `s.lower()` restricted to ASCII letters. */
  function Lower(s: string): (r: string)
    ensures |r| == |s|
  {
    seq(|s|, i requires 0 <= i < |s| => LowerChar(s[i]))
  }

  /** `s.upper()` restricted to ASCII letters. */
  function Upper(s: string): (r: string)
    ensures |r| == |s|
  {
    seq(|s|, i requires 0 <= i < |s| => UpperChar(s[i]))
  }

  /** Lower-casing forgets whether the text had been upper-cased first: the two
      spellings of a word compare equal once lowered. */
  lemma LowerOfUpper(s: string)
    ensures Lower(Upper(s)) == Lower(s)
  {
    forall i | 0 <= i < |s|
      ensures Lower(Upper(s))[i] == Lower(s)[i]
    {
      assert Upper(s)[i] == UpperChar(s[i]);
    }
  }

  /** Upper-casing twice is upper-casing once. */
  lemma UpperIdempotent(s: string)
    ensures Upper(Upper(s)) == Upper(s)
  {
    forall i | 0 <= i < |s|
      ensures Upper(Upper(s))[i] == Upper(s)[i]
    {
      assert Upper(s)[i] == UpperChar(s[i]);
    }
  }

  /** Python's `sub in s`. */
  predicate Contains(s: string, sub: string)
    decreases |s|
  {
    sub <= s || (|s| > 0 && Contains(s[1..], sub))
  }

  /** `Contains` holds exactly when `sub` occurs at some offset of `s`. */
  lemma {:induction false} ContainsAt(s: string, sub: string)
    ensures Contains(s, sub) <==> exists k :: 0 <= k <= |s| && sub <= s[k..]
    decreases |s|
  {
    if sub <= s {
      assert sub <= s[0..];
    } else if |s| == 0 {
      forall k | 0 <= k <= |s|
        ensures !(sub <= s[k..])
      {
        assert s[k..] == s;
      }
    } else {
      ContainsAt(s[1..], sub);
      if Contains(s[1..], sub) {
        var k :| 0 <= k <= |s[1..]| && sub <= s[1..][k..];
        assert s[1..][k..] == s[k + 1..];
      } else {
        forall k | 0 <= k <= |s|
          ensures !(sub <= s[k..])
        {
          if k > 0 {
            assert s[k..] == s[1..][k - 1..];
          } else {
            assert s[k..] == s;
          }
        }
      }
    }
  }

  // ---------------------------------------------------------------------------
  // Decimal numerals

  predicate IsDigit(c: char) {
    '0' <= c <= '9'
  }

  predicate AllDigits(s: string) {
    forall i :: 0 <= i < |s| ==> IsDigit(s[i])
  }

  function DigitChar(d: nat): (c: char)
    requires d < 10
  {
    (d + '0' as int) as char
  }

  /** The value of a string of decimal digits, most significant first. */
  function DigitsValue(s: string): nat
    requires AllDigits(s)
  {
    if |s| == 0 then 0
    else DigitsValue(s[..|s| - 1]) * 10 + (s[|s| - 1] as int - '0' as int)
  }

  /** Python's `str(n)` for a non-negative integer. */
  function NatToString(n: nat): (r: string)
    ensures |r| > 0 && AllDigits(r)
  {
    if n < 10 then [DigitChar(n)] else NatToString(n / 10) + [DigitChar(n % 10)]
  }

  /** Python's `str(i)` for an integer. */
  function IntToString(i: int): string {
    if i < 0 then "-" + NatToString(-i) else NatToString(i)
  }

  /** A non-empty run of decimal digits, as `int()` reads it. */
  function ParseNat(s: string): (r: Option<nat>)
    ensures r.Some? <==> |s| > 0 && AllDigits(s)
  {
    if |s| > 0 && AllDigits(s) then Some(DigitsValue(s)) else None
  }

  /** An optionally signed decimal integer literal, as `int()` reads it. */
  function ParseInt(s: string): Option<int> {
    if |s| > 0 && (s[0] == '-' || s[0] == '+') then
      match ParseNat(s[1..])
      case Some(n) =>
        var m: int := n;
        Some(if s[0] == '-' then -m else m)
      case None => None
    else
      match ParseNat(s)
      case Some(n) => Some(n)
      case None => None
  }

  function Pow10(k: nat): (r: nat)
    ensures r > 0
  {
    if k == 0 then 1 else 10 * Pow10(k - 1)
  }

  /** Position of the first occurrence of `c` in `s`. */
  function IndexOf(s: string, c: char): (r: Option<nat>)
    ensures r.Some? ==> r.value < |s| && s[r.value] == c
    ensures r.Some? ==> forall j :: 0 <= j < r.value ==> s[j] != c
    ensures r.None? ==> forall j :: 0 <= j < |s| ==> s[j] != c
  {
    if |s| == 0 then None
    else if s[0] == c then Some(0)
    else match IndexOf(s[1..], c)
      case Some(k) => Some(k + 1)
      case None => None
  }

  /** The number `whole.frac` spells. */
  function DecimalValue(whole: string, frac: string): real
    requires AllDigits(whole) && AllDigits(frac)
  {
    DigitsValue(whole) as real + DigitsValue(frac) as real / Pow10(|frac|) as real
  }

  /** Digits with an optional point (`12`, `12.50`, `12.`, `.5`); a point needs
      a digit on at least one side. */
  function ParseUnsignedDecimal(s: string): (r: Option<real>)
    ensures r.Some? ==> r.value >= 0.0
  {
    match IndexOf(s, '.')
    case None =>
      (match ParseNat(s)
       case Some(n) => Some(n as real)
       case None => None)
    case Some(k) =>
      var whole, frac := s[..k], s[k + 1..];
      if AllDigits(whole) && AllDigits(frac) && |whole| + |frac| > 0 then
        Some(DecimalValue(whole, frac))
      else None
  }

  /** An optionally signed decimal literal, as `float()` reads it. */
  function ParseDecimal(s: string): Option<real> {
    if |s| > 0 && (s[0] == '-' || s[0] == '+') then
      match ParseUnsignedDecimal(s[1..])
      case Some(r) => Some(if s[0] == '-' then -r else r)
      case None => None
    else ParseUnsignedDecimal(s)
  }

  lemma {:induction false} DigitsValueAppend(s: string, d: nat)
    requires AllDigits(s) && d < 10
    ensures AllDigits(s + [DigitChar(d)])
    ensures DigitsValue(s + [DigitChar(d)]) == DigitsValue(s) * 10 + d
  {
    var t := s + [DigitChar(d)];
    assert t[..|t| - 1] == s;
  }

  /** Reading back the digits `str(n)` writes gives `n`. */
  lemma {:induction false} NatToStringRoundTrip(n: nat)
    ensures DigitsValue(NatToString(n)) == n
  {
    if n < 10 {
      DigitsValueAppend([], n);
      assert [] + [DigitChar(n)] == [DigitChar(n)];
    } else {
      NatToStringRoundTrip(n / 10);
      DigitsValueAppend(NatToString(n / 10), n % 10);
    }
  }

  /** `int(str(i)) == i`. */
  lemma IntToStringRoundTrip(i: int)
    ensures ParseInt(IntToString(i)) == Some(i)
  {
    if i < 0 {
      NatToStringRoundTrip(-i);
      var s := IntToString(i);
      assert s[1..] == NatToString(-i);
    } else {
      NatToStringRoundTrip(i);
    }
  }

  /** The point of `w.f` is the first one in it. */
  lemma PointAfterDigits(w: string, f: string)
    requires AllDigits(w)
    ensures IndexOf(w + "." + f, '.') == Some(|w|)
  {
    var s := w + "." + f;
    assert s[|w|] == '.';
    assert forall j :: 0 <= j < |w| ==> s[j] == w[j] && IsDigit(s[j]);
  }

  /** `float()` reads back the decimal text `[-]w.f` as the number it spells:
      a price or weight the supplier sends as text converts to its value. */
  lemma PrintedDecimalRoundTrip(negative: bool, w: string, f: string)
    requires AllDigits(w) && AllDigits(f) && |w| + |f| > 0
    ensures ParseDecimal((if negative then "-" else "") + w + "." + f)
         == Some(if negative then -DecimalValue(w, f) else DecimalValue(w, f))
  {
    var u := w + "." + f;
    PointAfterDigits(w, f);
    assert u[..|w|] == w && u[|w| + 1..] == f;
    assert ParseUnsignedDecimal(u) == Some(DecimalValue(w, f));
    if negative {
      var s := "-" + w + "." + f;
      assert s == "-" + u && s[1..] == u;
    } else {
      assert "" + w + "." + f == u;
      assert u[0] != '-' && u[0] != '+' by {
        if |w| > 0 { assert u[0] == w[0]; } else { assert u[0] == '.'; }
      }
    }
  }

  /** `float(str(i)) == i` for an integer. */
  lemma PrintedIntRoundTrip(i: int)
    ensures ParseDecimal(IntToString(i)) == Some(i as real)
  {
    var n: nat := if i < 0 then -i else i;
    NatToStringRoundTrip(n);
    var d := NatToString(n);
    IndexOfNone(d, '.');
    if i < 0 {
      assert IntToString(i)[1..] == d;
    } else {
      assert IsDigit(d[0]);
    }
  }

  lemma IndexOfNone(s: string, c: char)
    requires AllDigits(s) && !IsDigit(c)
    ensures IndexOf(s, c).None?
  {
  }

  /** `str` is injective on integers: distinct numbers print differently. */
  lemma IntToStringInjective(i: int, j: int)
    ensures IntToString(i) == IntToString(j) ==> i == j
  {
    IntToStringRoundTrip(i);
    IntToStringRoundTrip(j);
  }
}

=== FILE: values.dfy ===
/** Decoded JSON values as the Python code sees them (payloads, API replies),
    the Python operations the code applies to them (truthiness, `.get`,
    `[...]`, `int()`, `float()`, `.upper()`), and the exceptions those
    operations and the code itself raise. */
module Values {
  import opened Wrappers
  import Text

  datatype Value =
    | Null
    | Bool(b: bool)
    | Int(i: int)
    | Real(r: real)
    | Str(s: string)
    | Arr(items: seq<Value>)
    | Obj(fields: map<string, Value>)

  /** The exceptions the modelled code raises or lets escape. The text of a
      message (`str(e)`) is represented by the value itself. */
  datatype Error =
    | UserError(text: string)                       // odoo UserError with a fixed text
    | ValidationError(text: string)                 // odoo ValidationError from a constraint
    | Wrapped(text: string, cause: Error)           // UserError(text % str(cause))
    | AuthenticationFailed(message: Value)          // ValueError('Authentication failed: ...')
    | ApiFailure(message: Value)                    // ValueError('API Error: ...')
    | UnsupportedMethod(verb: string)               // ValueError('Unsupported HTTP method: ...')
    | ConnectionFailed                              // requests ConnectionError / Timeout
    | HttpStatus(status: int)                       // requests HTTPError from raise_for_status
    | NotJson                                       // requests JSONDecodeError
    | NoAttribute(typeName: string, name: string)   // AttributeError
    | KeyMissing(key: string)                       // KeyError
    | NotSubscriptable(typeName: string)            // TypeError on v[key]
    | NotIterable(typeName: string)                 // TypeError on `for x in v`
    | BadConversion(target: string, typeName: string)  // ValueError / TypeError of int() / float()
    | BadRequestBody                                // the webhook body is not JSON
    | UniqueViolation(constraint: string)           // a SQL unique constraint refused a write

  /** Python's `type(v).__name__`. */
  function TypeName(v: Value): string {
    match v
    case Null => "NoneType"
    case Bool(_) => "bool"
    case Int(_) => "int"
    case Real(_) => "float"
    case Str(_) => "str"
    case Arr(_) => "list"
    case Obj(_) => "dict"
  }

  /** Python's `bool(v)`. */
  predicate Truthy(v: Value) {
    match v
    case Null => false
    case Bool(b) => b
    case Int(i) => i != 0
    case Real(r) => r != 0.0
    case Str(s) => s != ""
    case Arr(a) => a != []
    case Obj(m) => m != map[]
  }

  /** A field value the database stores as NULL: Python's `None` or `False`. */
  predicate StoredAsNull(v: Value) {
    v == Null || v == Bool(false)
  }

  /** Python's `v or w`. */
  function Or(v: Value, w: Value): Value {
    if Truthy(v) then v else w
  }

  /** Python's `v == n` for an integer literal `n`. */
  predicate EqualsInt(v: Value, n: int) {
    match v
    case Bool(b) => (if b then 1 else 0) == n
    case Int(i) => i == n
    case Real(r) => r == n as real
    case _ => false
  }

  /** `v.get(key, default)`; only a dict has `get`. */
  function Get(v: Value, key: string, default: Value): (r: Result<Value, Error>)
    ensures r.Success? <==> v.Obj?
    ensures v.Obj? && key in v.fields ==> r == Success(v.fields[key])
    ensures v.Obj? && key !in v.fields ==> r == Success(default)
  {
    match v
    case Obj(m) => Success(if key in m then m[key] else default)
    case _ => Failure(NoAttribute(TypeName(v), "get"))
  }

  /** `v[key]` with a string key. */
  function Index(v: Value, key: string): (r: Result<Value, Error>)
    ensures r.Success? <==> v.Obj? && key in v.fields
    ensures r.Success? ==> r.value == v.fields[key]
  {
    match v
    case Obj(m) => if key in m then Success(m[key]) else Failure(KeyMissing(key))
    case _ => Failure(NotSubscriptable(TypeName(v)))
  }

  /** `v.upper()`; only a string has `upper`. */
  function UpperOf(v: Value): (r: Result<string, Error>)
    ensures r.Success? <==> v.Str?
    ensures r.Success? ==> r.value == Text.Upper(v.s)
  {
    match v
    case Str(s) => Success(Text.Upper(s))
    case _ => Failure(NoAttribute(TypeName(v), "upper"))
  }

  /** `int(r)` for a float: truncation toward zero. */
  function Trunc(r: real): (n: int)
    ensures r >= 0.0 ==> 0.0 <= n as real <= r < n as real + 1.0
    ensures r < 0.0 ==> n as real - 1.0 < r <= n as real <= 0.0
  {
    if r >= 0.0 then r.Floor else -((-r).Floor)
  }

  /** Python's `int(v)`. */
  function ToInt(v: Value): (r: Result<int, Error>)
    ensures v.Int? ==> r == Success(v.i)
    ensures v.Bool? ==> r == Success(if v.b then 1 else 0)
    ensures v.Real? ==> r == Success(Trunc(v.r))
    ensures v.Str? ==> (r.Success? <==> Text.ParseInt(v.s).Some?)
    ensures v.Str? && r.Success? ==> r.value == Text.ParseInt(v.s).value
    ensures v.Null? || v.Arr? || v.Obj? ==> r.Failure?
  {
    match v
    case Bool(b) => Success(if b then 1 else 0)
    case Int(i) => Success(i)
    case Real(x) => Success(Trunc(x))
    case Str(s) =>
      (match Text.ParseInt(s)
       case Some(n) => Success(n)
       case None => Failure(BadConversion("int", "str")))
    case _ => Failure(BadConversion("int", TypeName(v)))
  }

  /** Python's `float(v)`. */
  function ToFloat(v: Value): (r: Result<real, Error>)
    ensures v.Int? ==> r == Success(v.i as real)
    ensures v.Real? ==> r == Success(v.r)
    ensures v.Bool? ==> r == Success(if v.b then 1.0 else 0.0)
    ensures v.Str? ==> (r.Success? <==> Text.ParseDecimal(v.s).Some?)
    ensures v.Str? && r.Success? ==> r.value == Text.ParseDecimal(v.s).value
    ensures v.Null? || v.Arr? || v.Obj? ==> r.Failure?
  {
    match v
    case Bool(b) => Success(if b then 1.0 else 0.0)
    case Int(i) => Success(i as real)
    case Real(x) => Success(x)
    case Str(s) =>
      (match Text.ParseDecimal(s)
       case Some(x) => Success(x)
       case None => Failure(BadConversion("float", "str")))
    case _ => Failure(BadConversion("float", TypeName(v)))
  }

  /** `int(str(n))` gives back `n`: the integer text the supplier may send for a
      quantity converts to the number it spells. */
  lemma ToIntOfPrintedInt(n: int)
    ensures ToInt(Str(Text.IntToString(n))) == Success(n)
  {
    Text.IntToStringRoundTrip(n);
  }

  /** `float(str(n))` gives back `n` for an integer sent as text. */
  lemma ToFloatOfPrintedInt(n: int)
    ensures ToFloat(Str(Text.IntToString(n))) == Success(n as real)
  {
    Text.PrintedIntRoundTrip(n);
  }

  /** `float()` of the decimal text `[-]w.f` (either side of the point may be
      empty, not both) is the number it spells, as for a price sent as text. */
  lemma ToFloatOfPrintedDecimal(negative: bool, w: string, f: string)
    requires Text.AllDigits(w) && Text.AllDigits(f) && |w| + |f| > 0
    ensures ToFloat(Str((if negative then "-" else "") + w + "." + f))
         == Success(if negative then -Text.DecimalValue(w, f) else Text.DecimalValue(w, f))
  {
    Text.PrintedDecimalRoundTrip(negative, w, f);
  }
}

=== FILE: webhook_controller.dfy ===
/** The public webhook endpoint (`/cjdropship/webhook/<config_id>`): the
    configuration check, the classification of the event name, and the
    record-then-process order of a delivery. */
module WebhookController {
  import opened Wrappers
  import opened Values
  import Text
  import Config
  import Orders
  import Webhooks

  // ---------------------------------------------------------------------------
  // Event classification

  /** The record type an event name selects, tested on the lower-cased name in
      a fixed order: "order" together with "status", then "tracking", then
      "inventory" or "stock"; anything else is `other`. */
  function Classify(event: string): (r: Webhooks.WebhookType)
    ensures var e := Text.Lower(event);
      var orderStatus := Text.Contains(e, "order") && Text.Contains(e, "status");
      && (r == Webhooks.OrderStatus <==> orderStatus)
      && (r == Webhooks.Tracking <==> !orderStatus && Text.Contains(e, "tracking"))
      && (r == Webhooks.Inventory <==>
            !orderStatus && !Text.Contains(e, "tracking") && (Text.Contains(e, "inventory") || Text.Contains(e, "stock")))
  {
    var e := Text.Lower(event);
    if Text.Contains(e, "order") && Text.Contains(e, "status") then Webhooks.OrderStatus
    else if Text.Contains(e, "tracking") then Webhooks.Tracking
    else if Text.Contains(e, "inventory") || Text.Contains(e, "stock") then Webhooks.Inventory
    else Webhooks.Other
  }

  /** The classification ignores letter case. */
  lemma ClassifyIgnoresCase(event: string)
    ensures Classify(Text.Upper(event)) == Classify(event)
  {
    Text.LowerOfUpper(event);
  }

  /** An event name that mentions none of the key words is `other`, and so is
      the '' the endpoint uses when the payload has no `event`. */
  lemma UnknownEventIsOther(event: string)
    requires forall k :: 0 <= k <= |event| ==>
      var rest := Text.Lower(event)[k..];
      !("order" <= rest) && !("tracking" <= rest) && !("inventory" <= rest) && !("stock" <= rest)
    ensures Classify(event) == Webhooks.Other
    ensures Classify("") == Webhooks.Other
  {
    var e := Text.Lower(event);
    Text.ContainsAt(e, "order");
    Text.ContainsAt(e, "tracking");
    Text.ContainsAt(e, "inventory");
    Text.ContainsAt(e, "stock");
  }

  /** A name mentioning both "order" and "status" is an order-status event even
      when it also mentions tracking or stock: the first test wins. */
  lemma OrderStatusTakesPrecedence(event: string, i: nat, j: nat)
    requires i <= |event| && j <= |event|
    requires "order" <= Text.Lower(event)[i..] && "status" <= Text.Lower(event)[j..]
    ensures Classify(event) == Webhooks.OrderStatus
  {
    Text.ContainsAt(Text.Lower(event), "order");
    Text.ContainsAt(Text.Lower(event), "status");
  }

  /** A name mentioning "tracking" but not both "order" and "status" is a
      tracking event, stock words notwithstanding. */
  lemma TrackingBeforeInventory(event: string, i: nat)
    requires i <= |event| && "tracking" <= Text.Lower(event)[i..]
    requires !Text.Contains(Text.Lower(event), "order") || !Text.Contains(Text.Lower(event), "status")
    ensures Classify(event) == Webhooks.Tracking
  {
    Text.ContainsAt(Text.Lower(event), "tracking");
  }

  // ---------------------------------------------------------------------------
  // The endpoint

  /** The `status` of the dict the endpoint answers with: `success`, the
      `error` of a missing or disabled configuration, or the `error` carrying
      the exception. */
  datatype Ack = Received | NotEnabled | Failed(error: Error)

  /** The webhook log and the records the handlers touch. */
  datatype World = World(webhooks: seq<Webhooks.Webhook>, stores: Webhooks.Stores)

  /** `receive_webhook`: for an existing configuration with webhooks enabled,
      read the JSON body (`None` when it is not JSON), take its `event` ('' when
      absent), log a record of the event's type (supplier order id '' when
      absent) and process it at once. A payload that is not an object, or an
      event that is not a string, raises before the record is made. */
  function ReceiveWebhook(configs: seq<Config.Config>, configId: int, body: Option<Value>,
                          headers: map<string, string>, world: World, now: int): (r: (World, Ack))
    ensures r.1 == NotEnabled <==>
      Config.Browse(configs, configId).None? || !Config.Browse(configs, configId).value.webhookEnabled
    ensures r.1 == Received <==>
      && Config.Browse(configs, configId).Some? && Config.Browse(configs, configId).value.webhookEnabled
      && body.Some? && body.value.Obj? && Get(body.value, "event", Str("")).value.Str?
    ensures r.1 != Received ==> r.0 == world
    ensures r.1 == Received ==>
      && |r.0.webhooks| == |world.webhooks| + 1 && r.0.webhooks[..|world.webhooks|] == world.webhooks
      && var w := r.0.webhooks[|world.webhooks|];
         && w.kind == Classify(Get(body.value, "event", Str("")).value.s)
         && w.cjOrderId == Get(body.value, "orderId", Str("")).value
         && w.payload == body && w.headers == headers
         && (w.processed ==> w.processDate == Some(now))
         && (!w.processed ==> w.errorMessage.Some? && r.0.stores == world.stores)
    ensures r.1 == Received ==>
      var event := Get(body.value, "event", Str("")).value;
      var logged := Webhooks.Webhook(Classify(event.s), Get(body.value, "orderId", Str("")).value, event,
                                     body, headers, false, None, None, None);
      && |r.0.webhooks| == |world.webhooks| + 1
      && (r.0.webhooks[|world.webhooks|], r.0.stores) == Webhooks.Process(logged, world.stores, now)
  {
    match Config.Browse(configs, configId)
    case None => (world, NotEnabled)
    case Some(c) =>
      if !c.webhookEnabled then (world, NotEnabled)
      else
        match body
        case None => (world, Failed(BadRequestBody))
        case Some(payload) =>
          match Get(payload, "event", Str(""))
          case Failure(e) => (world, Failed(e))
          case Success(event) =>
            if !event.Str? then (world, Failed(NoAttribute(TypeName(event), "lower")))
            else
              var w := Webhooks.Webhook(Classify(event.s), Get(payload, "orderId", Str("")).value, event,
                                        Some(payload), headers, false, None, None, None);
              var (w1, s1) := Webhooks.Process(w, world.stores, now);
              assert !w1.processed ==> w1.errorMessage.Some?;
              (World(world.webhooks + [w1], s1), Received)
  }

  /** A delivery keeps the supplier order ids and the catalog keys unique. */
  lemma ReceiveKeepsValid(configs: seq<Config.Config>, configId: int, body: Option<Value>,
                          headers: map<string, string>, world: World, now: int)
    requires Webhooks.Valid(world.stores)
    ensures Webhooks.Valid(ReceiveWebhook(configs, configId, body, headers, world, now).0.stores)
  {
    var r := ReceiveWebhook(configs, configId, body, headers, world, now);
    if r.1 == Received {
      var payload := body.value;
      var event := Get(payload, "event", Str("")).value;
      var w := Webhooks.Webhook(Classify(event.s), Get(payload, "orderId", Str("")).value, event,
                                Some(payload), headers, false, None, None, None);
      Webhooks.ProcessKeepsValid(w, world.stores, now);
    }
  }

  /** The supplier may deliver an event twice. The log then holds two records,
      but the orders and products end as one delivery leaves them. */
  lemma DuplicateDeliverySameStores(configs: seq<Config.Config>, configId: int, body: Option<Value>,
                                    headers: map<string, string>, world: World, now: int)
    ensures var once := ReceiveWebhook(configs, configId, body, headers, world, now).0;
      ReceiveWebhook(configs, configId, body, headers, once, now).0.stores == once.stores
  {
    var once := ReceiveWebhook(configs, configId, body, headers, world, now);
    if once.1 == Received {
      var payload := body.value;
      var event := Get(payload, "event", Str("")).value;
      var kind := Classify(event.s);
      var h := Webhooks.Handle(kind, payload, world.stores, now);
      if h.Success? {
        Webhooks.HandleIdempotent(kind, payload, world.stores, now);
      }
    }
  }

  /** Example: the supplier's order-status event name `orderStatusChanged` is
      classified as an order-status event. */
  lemma OrderStatusChangedIsOrderStatus()
    ensures Classify("orderStatusChanged") == Webhooks.OrderStatus
  {
    var e := Text.Lower("orderStatusChanged");
    assert e == "orderstatuschanged";
    OrderStatusTakesPrecedence("orderStatusChanged", 0, 5);
  }

  /** Example: a shipped notice for a submitted order, as the supplier sends it, moves
      the order to `shipped` and links the logged record to it. */
  lemma ShippedNoticeScenario(configs: seq<Config.Config>, configId: int, world: World, now: int, k: nat)
    requires Config.Browse(configs, configId).Some? && Config.Browse(configs, configId).value.webhookEnabled
    requires Orders.UniqueCjOrderIds(world.stores.orders)
    requires k < |world.stores.orders| && world.stores.orders[k].state == Orders.Submitted
    requires world.stores.orders[k].cjOrderId == Str("CJ123")
    ensures var body := Obj(map["event" := Str("orderStatusChanged"), "orderId" := Str("CJ123"),
                                "status" := Str("shipped")]);
      var r := ReceiveWebhook(configs, configId, Some(body), map[], world, now);
      && r.1 == Received
      && r.0.stores.orders[k].state == Orders.Shipped
      && r.0.webhooks[|world.webhooks|].kind == Webhooks.OrderStatus
      && r.0.webhooks[|world.webhooks|].processed
      && r.0.webhooks[|world.webhooks|].order == Some(k)
  {
    var body := Obj(map["event" := Str("orderStatusChanged"), "orderId" := Str("CJ123"), "status" := Str("shipped")]);
    OrderStatusChangedIsOrderStatus();
    Orders.FindIsUnique(world.stores.orders, Str("CJ123"), k);
    assert Text.Upper("shipped") == "SHIPPED";
    var o := world.stores.orders[k];
    var h := Webhooks.OrderStatusUpdate(world.stores, body);
    assert Orders.UpdateFromCjData(o, body).Success?;
    assert Orders.UpdateFromCjData(o, body).value.state == Orders.Shipped;
    assert h.Success? && h.value.linked == Some(k);
  }
}

=== FILE: webhooks.dfy ===
/** The webhook log record (`cjdropship.webhook`) and its processing: a
    record is handled once, by the handler of its type, and either marked
    processed or left unprocessed with the error. */
module Webhooks {
  import opened Wrappers
  import opened Values
  import Orders
  import Catalog

  datatype WebhookType = OrderStatus | Tracking | Inventory | Other

  datatype Webhook = Webhook(
    kind: WebhookType,
    cjOrderId: Value,
    event: Value,
    payload: Option<Value>,       // the decoded payload; None when the field is empty
    headers: map<string, string>,
    processed: bool,
    processDate: Option<int>,
    errorMessage: Option<Error>,
    order: Option<nat>)           // order_id, as an index of the order store

  /** The records the handlers read and write. */
  datatype Stores = Stores(orders: seq<Orders.Order>, products: seq<Catalog.Product>)

  /** What a handler did: the stores after it and the order it linked the
      webhook record to, if any. */
  datatype Effect = Effect(stores: Stores, linked: Option<nat>)

  /** The store invariants the handlers keep. */
  predicate Valid(s: Stores) {
    Orders.UniqueCjOrderIds(s.orders) && Catalog.UniqueKeys(s.products)
  }

  // ---------------------------------------------------------------------------
  // Handlers

  /** `payload.get(key)` of an object payload: the value, or `None`. */
  function Arg(payload: Value, key: string): Value
    requires payload.Obj?
  {
    Get(payload, key, Null).value
  }

  /** `_process_order_status_update`: without an `orderId`, or without an
      order carrying it, nothing happens; otherwise the newest such order gets
      the status-table update and the record is linked to it, unless the update
      raises, which leaves the stores as they were. */
  function OrderStatusUpdate(s: Stores, payload: Value): (r: Result<Effect, Error>)
    ensures r.Failure? ==> !payload.Obj? || Truthy(Arg(payload, "orderId"))
    ensures !payload.Obj? ==> r.Failure?
    ensures payload.Obj? && !(Truthy(Arg(payload, "orderId"))
                              && Orders.FindByCjOrderId(s.orders, Arg(payload, "orderId")).Some?) ==>
      r == Success(Effect(s, None))
    ensures payload.Obj? && Truthy(Arg(payload, "orderId"))
            && Orders.FindByCjOrderId(s.orders, Arg(payload, "orderId")).Some? ==>
      var k := Orders.FindByCjOrderId(s.orders, Arg(payload, "orderId")).value;
      Orders.UpdateFromCjData(s.orders[k], payload).Failure? ==>
        r == Failure(Orders.UpdateFromCjData(s.orders[k], payload).error)
    ensures r.Success? ==> payload.Obj? && r.value.stores.products == s.products
    ensures r.Success? ==> |r.value.stores.orders| == |s.orders|
    ensures r.Success? && r.value.linked.None? ==> r.value.stores == s
    ensures r.Success? && r.value.linked.Some? ==>
      var k := r.value.linked.value;
      && payload.Obj? && k < |s.orders| && s.orders[k].cjOrderId == Arg(payload, "orderId")
      && Truthy(s.orders[k].cjOrderId)
      && Orders.UpdateFromCjData(s.orders[k], payload) == Success(r.value.stores.orders[k])
      && r.value.stores.orders == s.orders[k := r.value.stores.orders[k]]
    ensures payload.Obj? && Truthy(Arg(payload, "orderId"))
            && Orders.FindByCjOrderId(s.orders, Arg(payload, "orderId")).Some?
            && Orders.UpdateFromCjData(s.orders[Orders.FindByCjOrderId(s.orders, Arg(payload, "orderId")).value], payload).Success?
            ==> r.Success? && r.value.linked == Orders.FindByCjOrderId(s.orders, Arg(payload, "orderId"))
  {
    var id :- Get(payload, "orderId", Null);
    if !Truthy(id) then Success(Effect(s, None))
    else
      match Orders.FindByCjOrderId(s.orders, id)
      case None => Success(Effect(s, None))
      case Some(k) =>
        var o :- Orders.UpdateFromCjData(s.orders[k], payload);
        Success(Effect(s.(orders := s.orders[k := o]), Some(k)))
  }

  /** `_process_tracking_update`: when an order carries the `orderId` and the
      payload has a non-empty tracking number, that order gets the number and
      the state `shipped`, whatever its state was, and the record is linked to
      it. */
  function TrackingUpdate(s: Stores, payload: Value): (r: Result<Effect, Error>)
    ensures r.Success? <==> payload.Obj?
    ensures r.Success? ==> r.value.stores.products == s.products
    ensures r.Success? && r.value.linked.None? ==> r.value.stores == s
    ensures r.Success? && r.value.linked.Some? ==>
      var k := r.value.linked.value;
      && payload.Obj? && k < |s.orders| && s.orders[k].cjOrderId == Arg(payload, "orderId")
      && Truthy(s.orders[k].cjOrderId) && Truthy(Arg(payload, "trackingNumber"))
      && r.value.stores.orders == s.orders[k := s.orders[k].(trackingNumber := Arg(payload, "trackingNumber"),
                                                             state := Orders.Shipped)]
  {
    var id :- Get(payload, "orderId", Null);
    var tracking := Get(payload, "trackingNumber", Null).value;
    if !Truthy(id) then Success(Effect(s, None))
    else
      match Orders.FindByCjOrderId(s.orders, id)
      case None => Success(Effect(s, None))
      case Some(k) =>
        if Truthy(tracking) then
          Success(Effect(s.(orders := s.orders[k := s.orders[k].(trackingNumber := tracking, state := Orders.Shipped)]), Some(k)))
        else
          Success(Effect(s, None))
  }

  /** `_process_inventory_update`: when an active record of the `productId`
      exists and the quantity is present, the first such record gets the
      quantity as an integer and the sync time. */
  function InventoryUpdate(s: Stores, payload: Value, now: int): (r: Result<Effect, Error>)
    ensures !payload.Obj? ==> r.Failure?
    ensures r.Success? ==> r.value.linked.None? && r.value.stores.orders == s.orders
    ensures payload.Obj? && !(Truthy(Arg(payload, "productId")) && Arg(payload, "quantity") != Null
                              && Catalog.FindByProductId(s.products, Arg(payload, "productId")).Some?) ==>
      r == Success(Effect(s, None))
    ensures payload.Obj? && Truthy(Arg(payload, "productId")) && Arg(payload, "quantity") != Null ==>
      match Catalog.FindByProductId(s.products, Arg(payload, "productId"))
      case None => true
      case Some(k) =>
        match ToInt(Arg(payload, "quantity"))
        case Failure(e) => r == Failure(e)
        case Success(n) =>
          r == Success(Effect(s.(products := s.products[k := s.products[k].(stockQty := n, syncDate := Some(now))]), None))
  {
    var pid :- Get(payload, "productId", Null);
    var quantity := Get(payload, "quantity", Null).value;
    if !Truthy(pid) then Success(Effect(s, None))
    else
      match Catalog.FindByProductId(s.products, pid)
      case None => Success(Effect(s, None))
      case Some(k) =>
        if quantity == Null then Success(Effect(s, None))
        else
          var n :- ToInt(quantity);
          Success(Effect(s.(products := s.products[k := s.products[k].(stockQty := n, syncDate := Some(now))]), None))
  }

  /** The handler of a record's type; an `other` record has none. */
  function Handle(kind: WebhookType, payload: Value, s: Stores, now: int): (r: Result<Effect, Error>)
    ensures kind == Other ==> r == Success(Effect(s, None))
  {
    match kind
    case OrderStatus => OrderStatusUpdate(s, payload)
    case Tracking => TrackingUpdate(s, payload)
    case Inventory => InventoryUpdate(s, payload, now)
    case Other => Success(Effect(s, None))
  }

  // ---------------------------------------------------------------------------
  // Processing (`action_process_webhook`)

  /** Process record `w` at `now`. A processed record is left alone. Otherwise
      the payload (`{}` when empty) goes to the handler of the record's type;
      on success the record is marked processed with the date and linked to the
      order the handler names; on failure only the error is recorded and the
      stores keep their state, since every handler fails before writing. */
  function Process(w: Webhook, s: Stores, now: int): (r: (Webhook, Stores))
    ensures w.processed ==> r == (w, s)
    ensures !w.processed ==>
      var h := Handle(w.kind, w.payload.GetOr(Obj(map[])), s, now);
      && (h.Success? ==>
            && r.1 == h.value.stores
            && r.0 == w.(processed := true, processDate := Some(now),
                         order := if h.value.linked.Some? then h.value.linked else w.order))
      && (h.Failure? ==> r == (w.(errorMessage := Some(h.error)), s))
    ensures !r.0.processed ==> r.1 == s && r.0 == w.(errorMessage := r.0.errorMessage)
  {
    if w.processed then (w, s)
    else
      match Handle(w.kind, w.payload.GetOr(Obj(map[])), s, now)
      case Failure(e) => (w.(errorMessage := Some(e)), s)
      case Success(eff) =>
        (w.(processed := true, processDate := Some(now),
            order := if eff.linked.Some? then eff.linked else w.order), eff.stores)
  }

  /** Processing a record a second time, at any later moment, changes nothing
      more: a processed record is skipped, and a failed one fails again in the
      same way because its handler did not write. */
  lemma ProcessTwice(w: Webhook, s: Stores, now: int, later: int)
    ensures var (w1, s1) := Process(w, s, now);
      Process(w1, s1, later) == Process(w, s, now)
  {
    var (w1, s1) := Process(w, s, now);
    if !w.processed && !w1.processed {
      var payload := w.payload.GetOr(Obj(map[]));
      assert Handle(w.kind, payload, s, now).Failure?;
      HandleFailureIgnoresTime(w.kind, payload, s, now, later);
    }
  }

  /** Whether a handler fails does not depend on the moment it runs. */
  lemma HandleFailureIgnoresTime(kind: WebhookType, payload: Value, s: Stores, now: int, later: int)
    requires Handle(kind, payload, s, now).Failure?
    ensures Handle(kind, payload, s, later) == Handle(kind, payload, s, now)
  {
  }

  /** An `other` record is marked processed and touches no order or product. */
  lemma OtherTouchesNothing(w: Webhook, s: Stores, now: int)
    requires w.kind == Other && !w.processed
    ensures Process(w, s, now).1 == s
    ensures Process(w, s, now).0 == w.(processed := true, processDate := Some(now))
  {
  }

  /** A tracking webhook for an order that exists moves it to `shipped` from
      any state, `delivered` and `cancelled` included. */
  lemma TrackingForcesShipped(w: Webhook, s: Stores, now: int, k: nat)
    requires !w.processed && w.kind == Tracking && w.payload.Some?
    requires w.payload.value.Obj? && "orderId" in w.payload.value.fields
    requires "trackingNumber" in w.payload.value.fields && Truthy(w.payload.value.fields["trackingNumber"])
    requires k < |s.orders| && Orders.UniqueCjOrderIds(s.orders)
    requires s.orders[k].cjOrderId == w.payload.value.fields["orderId"] && Truthy(s.orders[k].cjOrderId)
    ensures Process(w, s, now).1.orders[k].state == Orders.Shipped
    ensures Process(w, s, now).1.orders[k].trackingNumber == w.payload.value.fields["trackingNumber"]
    ensures Process(w, s, now).0.processed && Process(w, s, now).0.order == Some(k)
  {
    Orders.FindIsUnique(s.orders, s.orders[k].cjOrderId, k);
  }

  // ---------------------------------------------------------------------------
  // Invariants and repeated deliveries

  /** Processing keeps the supplier order ids and the catalog keys unique: the
      handlers never write either. */
  lemma ProcessKeepsValid(w: Webhook, s: Stores, now: int)
    requires Valid(s)
    ensures Valid(Process(w, s, now).1)
    ensures |Process(w, s, now).1.orders| == |s.orders| && |Process(w, s, now).1.products| == |s.products|
  {
    var s1 := Process(w, s, now).1;
    if s1 != s {
      var h := Handle(w.kind, w.payload.GetOr(Obj(map[])), s, now);
      assert h.Success? && s1 == h.value.stores;
      if s1.orders != s.orders {
        var k := h.value.linked.value;
        assert s1.orders == s.orders[k := s1.orders[k]] && s1.orders[k].cjOrderId == s.orders[k].cjOrderId;
        assert Orders.UniqueCjOrderIds(s1.orders) by {
          forall i, j | 0 <= i < |s1.orders| && 0 <= j < |s1.orders| && i != j && !StoredAsNull(s1.orders[i].cjOrderId)
            ensures s1.orders[i].cjOrderId != s1.orders[j].cjOrderId
          {
            assert s1.orders[i].cjOrderId == s.orders[i].cjOrderId && s1.orders[j].cjOrderId == s.orders[j].cjOrderId;
          }
        }
      }
      if s1.products != s.products {
        var payload := w.payload.GetOr(Obj(map[]));
        var k := Catalog.FindByProductId(s.products, Arg(payload, "productId")).value;
        assert s1.products == s.products[k := s.products[k].(stockQty := s1.products[k].stockQty, syncDate := Some(now))];
        assert Catalog.SameKeys(s.products, s1.products);
        Catalog.SameKeysUnique(s.products, s1.products);
      }
    }
  }

  /** The newest order with an id is the same after a write that keeps every
      order's id. */
  lemma FindOrderAfterWrite(orders: seq<Orders.Order>, k: nat, o: Orders.Order, id: Value)
    requires k < |orders| && o.cjOrderId == orders[k].cjOrderId
    ensures Orders.FindByCjOrderId(orders[k := o], id) == Orders.FindByCjOrderId(orders, id)
  {
    var os := orders[k := o];
    assert forall j :: 0 <= j < |orders| ==> os[j].cjOrderId == orders[j].cjOrderId;
  }

  /** The first active record of a product is the same after a write that
      keeps every record's key and activity. */
  lemma FindProductAfterWrite(ps: seq<Catalog.Product>, k: nat, p: Catalog.Product, pid: Value)
    requires k < |ps| && p.productId == ps[k].productId && p.active == ps[k].active
    ensures Catalog.FindByProductId(ps[k := p], pid) == Catalog.FindByProductId(ps, pid)
  {
    var qs := ps[k := p];
    assert forall j :: 0 <= j < |ps| ==> qs[j].productId == ps[j].productId && qs[j].active == ps[j].active;
  }

  /** The supplier may deliver the same event twice; since each delivery makes
      a new log record, the handler runs twice. Running a handler on the stores
      it produced, with the same payload at the same moment, produces them
      again. */
  lemma HandleIdempotent(kind: WebhookType, payload: Value, s: Stores, now: int)
    requires Handle(kind, payload, s, now).Success?
    ensures Handle(kind, payload, Handle(kind, payload, s, now).value.stores, now) == Handle(kind, payload, s, now)
  {
    var e := Handle(kind, payload, s, now).value;
    var s1 := e.stores;
    match kind
    case OrderStatus =>
      if e.linked.Some? {
        var k := e.linked.value;
        var id := payload.fields["orderId"];
        FindOrderAfterWrite(s.orders, k, s1.orders[k], id);
        assert s.orders[k := s1.orders[k]] == s1.orders;
        Orders.UpdateIdempotent(s.orders[k], payload);
        assert s1.orders[k := s1.orders[k]] == s1.orders;
      }
    case Tracking =>
      if e.linked.Some? {
        var k := e.linked.value;
        var id := payload.fields["orderId"];
        FindOrderAfterWrite(s.orders, k, s1.orders[k], id);
        assert s.orders[k := s1.orders[k]] == s1.orders;
        assert s1.orders[k := s1.orders[k]] == s1.orders;
      }
    case Inventory =>
      if s1.products != s.products {
        var pid := Arg(payload, "productId");
        var k := Catalog.FindByProductId(s.products, pid).value;
        var n := ToInt(Arg(payload, "quantity")).value;
        assert s1.products == s.products[k := s.products[k].(stockQty := n, syncDate := Some(now))];
        FindProductAfterWrite(s.products, k, s1.products[k], pid);
        assert s1.products[k := s1.products[k].(stockQty := n, syncDate := Some(now))] == s1.products;
      }
    case Other =>
  }
}

=== FILE: wrappers.dfy ===
/** Failure-carrying datatypes used throughout the model.

    - `Option<T>` stands for a Python value that may be `None` / an Odoo
      Many2one that may be empty.
    - `Result<T, E>` stands for a call that either returns a value or raises.
    - `Outcome<E>` stands for a call whose return value is irrelevant but
      which may raise.
 */
module Wrappers {

  datatype Option<+T> = None | Some(value: T) {

    /** The wrapped value, or `default` when there is none. */
    function GetOr(default: T): T {
      match this
      case Some(v) => v
      case None => default
    }
  }

  datatype Result<+T, +E> = Success(value: T) | Failure(error: E) {

    predicate IsFailure() {
      Failure?
    }

    function PropagateFailure<U>(): Result<U, E>
      requires Failure?
    {
      Failure(error)
    }

    function Extract(): T
      requires Success?
    {
      value
    }
  }

  datatype Outcome<+E> = Pass | Fail(error: E)
}
